=== FILE: README.md ===
# WP Varnish Cache Purger, modelled in Dafny

This project models the core of the WordPress plugin `WP_Varnish_Cache_Purger`. The plugin sends HTTP `PURGE` requests to Varnish in three situations:

- on a WP-Cron schedule, for every configured host and path;
- when a post is published or updated, for the post's URL on every host (and, if enabled, each host's home page);
- through a direct purge server when one is configured, in which case the original host travels in the `Host` header.

`purge_post_urls` does not deduplicate the URLs it collects, so the home page of a front-page post is purged twice (`Planner.FrontPagePurgedTwice`).

The model covers these parts of the plugin:

- **Settings sanitisation** (`Settings`). The model reproduces `sanitize_settings` and its per-field helpers with PHP's own notions of emptiness and trimming.
- **URL building and reading** (`Urls`).
- **Request planning** (`Planner`). The scheduled run and the post purge are modelled as the list of `send_purge_request` calls they make.
- **The request descriptor and log lines of one PURGE** (`Dispatch`).
- **First-run time arithmetic** (`Clock`).
- **The WP-Cron timer** (`Scheduler`). Each hook the plugin registers is a state transition on the list of events for its cron hook.

Each module has a supporting module with PHP string primitives, order-preserving deduplication, or nested-loop layout:

| Module | What it provides |
|---|---|
| `PhpStrings` | `trim`, `explode`, `untrailingslashit` |
| `Dedup` | `array_values(array_unique(...))` |
| `Blocks` | `foreach` inside `foreach` |
| `Sift` | a `foreach` that appends only some elements, each possibly transformed |

Everything is a pure function. The outside world becomes parameters:

- the current time and the site's UTC offset;
- the registered cron schedules;
- the transport's outcome;
- the helpers `esc_url_raw` and `sanitize_text_field`.

All source references below are to `wp-varnish-cache-purger.php`.

## Model

| member | source | states |
|---|---|---|
| Settings.SanitizeKey | wp-varnish-cache-purger.php:612-618 | `sanitize_key` yields only `a-z0-9_-` and leaves an already-valid key unchanged |
| Settings.SanitizeInterval | wp-varnish-cache-purger.php:612-618 | The schedule is the sanitised key when the field is non-empty and the key is a registered schedule. Otherwise it is the default `hourly`. Either way it is registered or `hourly`. |
| Settings.MatchClockShapes | wp-varnish-cache-purger.php:733 | The pattern accepts exactly two shapes: the zero-padded `HH:MM` of its value, or `H:MM` with a one-digit hour |
| Settings.MatchShortTime | wp-varnish-cache-purger.php:733 | A one-digit hour `H:MM` matches and is read as hour H and minute MM |
| Settings.FormatTime | wp-varnish-cache-purger.php:734 | `%02d:%02d` gives a canonical `HH:MM` that the time pattern reads back as the same hour and minute |
| Settings.CanonicalTimeRoundTrip | wp-varnish-cache-purger.php:733-734 | Every canonical `HH:MM` is the formatting of the time it parses to |
| Settings.SanitizeTimeField | wp-varnish-cache-purger.php:727-739 | A non-string, or a trimmed string that does not match, gives the fallback. A match gives a canonical time denoting the same hour and minute. |
| Settings.SanitizeShortTime | wp-varnish-cache-purger.php:727-739 | A one-digit hour is stored zero-padded: `H:MM` becomes `0H:MM` |
| Settings.SanitizeCanonicalTime | wp-varnish-cache-purger.php:727-739 | A canonical time passes sanitisation unchanged, whatever the fallback |
| Settings.SanitizeTimeFieldIdempotent | wp-varnish-cache-purger.php:727-739 | Sanitising a sanitised time again changes nothing |
| Settings.ParseTimeToParts | wp-varnish-cache-purger.php:846-858 | A matching time gives its hour and minute. Anything else gives (0, 0) through the `00:00` fallback. The result is always a valid clock time. |
| Settings.ParseFormattedTime | wp-varnish-cache-purger.php:846-852 | Reading back a formatted time gives the hour and minute that were formatted |
| Settings.SanitizeWeekday | wp-varnish-cache-purger.php:744-754 | A numeric day in 0..6 is kept and anything else becomes the default Monday (1). The result is always 0..6. |
| Settings.NumericStringOfIntToString | wp-varnish-cache-purger.php:746-747 | `is_numeric` accepts `(string) $n` and `(int)` reads it back as n |
| Settings.NumericStringOfNegativeDigits | wp-varnish-cache-purger.php:746-747 | A minus sign followed by digits is numeric and casts to the negated value of the digits |
| Settings.SanitizeWeekdayText | wp-varnish-cache-purger.php:744-754 | A sanitised weekday, re-submitted as text or as an integer, sanitises to itself |
| Settings.NormalizePathLineShape | wp-varnish-cache-purger.php:691-697 | A line becomes a path with exactly one leading slash. The trimmed line is a run of slashes followed by that path without its slash. |
| Settings.NormalizePathLineNoop | wp-varnish-cache-purger.php:691-697 | A stored path is its own normalisation |
| Settings.PathCandidates | wp-varnish-cache-purger.php:688-699 | The candidates are all normalised, and there are none exactly when every line is blank |
| Settings.PathCandidatesCover | wp-varnish-cache-purger.php:688-699 | Every non-blank line is represented by its normalisation |
| Settings.PathCandidatesFromLines | wp-varnish-cache-purger.php:688-699 | Every candidate is the normalisation of some non-blank line |
| Settings.PathCandidatesAppend | wp-varnish-cache-purger.php:688-699 | Candidates follow line order: one more line appends its normalisation at the end, or nothing if it is blank |
| Settings.SanitizePaths | wp-varnish-cache-purger.php:680-704 | The stored path list is non-empty and free of duplicates, and every path in it is normalised |
| Settings.SanitizePathLinesContents | wp-varnish-cache-purger.php:680-704 | All-blank input yields `['/']`. Otherwise the normalisation of every non-blank line is present, and every stored path is the normalisation of some non-blank line. |
| Settings.SanitizePathLinesOrder | wp-varnish-cache-purger.php:703 | The kept paths are in first-occurrence order (`array_unique` followed by `array_values`) |
| Settings.SanitizePathsIdempotent | wp-varnish-cache-purger.php:680-704 | Sanitising the stored path list again gives the same list |
| Settings.HostCandidates | wp-varnish-cache-purger.php:650-664 | Every kept host has had its trailing slashes removed |
| Settings.HostCandidatesFromLines | wp-varnish-cache-purger.php:650-664 | Every candidate is `untrailingslashit(esc_url_raw(trim($line)))` for a line that is non-blank once trimmed and not PHP-empty once escaped. A candidate itself may be empty: the line `/` gives `""`. |
| Settings.HostCandidatesCover | wp-varnish-cache-purger.php:650-664 | Every such usable line is represented among the candidates |
| Settings.HostCandidatesAppend | wp-varnish-cache-purger.php:650-664 | Candidates follow line order: one more line appends its host at the end, or nothing if it is unusable |
| Settings.SanitizeHosts | wp-varnish-cache-purger.php:643-671 | The stored host list is non-empty and free of duplicates, and no host in it ends with a slash |
| Settings.SanitizeHostLinesContents | wp-varnish-cache-purger.php:643-671 | With no candidate the result is the home URL. Otherwise every candidate is present, nothing else is, and the order is that of first occurrence. |
| Settings.SanitizePurgeServerCut | wp-varnish-cache-purger.php:709-722 | A non-blank address reaches `sanitize_text_field` as a prefix of the trimmed value: the part cut off is all slashes and the prefix does not end in one |
| Settings.PurgeServerCore | wp-varnish-cache-purger.php:716-720 | The core is a prefix of the trimmed value that starts with a non-space and does not end with `/`, and only slashes follow it |
| Settings.SanitizeSettings | wp-varnish-cache-purger.php:592-634 | Every result satisfies the settings invariants: non-empty duplicate-free host and path lists, hosts without trailing slashes, a registered or default schedule, canonical times, a weekday in 0..6. A non-array gives the defaults. |
| Settings.EmptyFormSettings | wp-varnish-cache-purger.php:592-634 | An empty form keeps every default except the three purge checkboxes, which become false |
| Settings.ResaveStoredSettings | wp-varnish-cache-purger.php:592-634 | Sanitising the array a valid settings snapshot is stored as gives that snapshot back. This holds when the WordPress helpers leave its texts alone. |
| Settings.ResaveHosts | wp-varnish-cache-purger.php:643-671 | A stored host list in sanitised form sanitises to itself |
| Settings.ResavePaths | wp-varnish-cache-purger.php:680-704 | A stored path list sanitises to itself |
| Urls.SplitAt | wp-varnish-cache-purger.php:812-823 | Cutting at the first occurrence of a character gives back the string when rejoined |
| Urls.ParseUrl | wp-varnish-cache-purger.php:797-839 | A parsed path starts with `/` when there is a host. The path holds no `?` or `#`, the query holds no `#`, and a host is present exactly when a scheme is. Failure happens only for a scheme with an empty host. |
| Urls.LeadingSlash | wp-varnish-cache-purger.php:772 | `'/' . ltrim($path, '/')` starts with exactly one slash |
| Urls.LeadingSlashIdempotent | wp-varnish-cache-purger.php:772 | Normalising the leading slash twice is the same as once |
| Urls.PurgeServerBase | wp-varnish-cache-purger.php:774-784 | A purge server is in use exactly when its trimmed setting is non-empty, and its base then starts with `http://` or `https://` |
| Urls.BuildPurgeRequestUrlParts | wp-varnish-cache-purger.php:770-792 | A request URL is its base, then the normalised path, then `?query` when the query is non-empty. The base is the host without trailing slashes, or the purge server. |
| Urls.PurgeServerIgnoresHost | wp-varnish-cache-purger.php:778-784 | With a purge server set, the host plays no part in the URL and the URL has an http(s) scheme |
| Urls.PurgeServerDefaultsToHttp | wp-varnish-cache-purger.php:780-782 | A server given without scheme is reached over plain http |
| Urls.PurgeServerKeepsScheme | wp-varnish-cache-purger.php:774-784 | A server that already starts with `http://` or `https://` is kept as written, without its trailing slashes and with no scheme added |
| Urls.BareServerBase | wp-varnish-cache-purger.php:774-784 | A purge server written as `host:port` becomes the origin `http://host:port` |
| Urls.HostHeaderForEndpoint | wp-varnish-cache-purger.php:797-805 | The Host header is empty or the parsed host of the endpoint, and a non-empty one has no port or user part |
| Urls.HostHeaderOfOrigin | wp-varnish-cache-purger.php:797-805 | The Host header of an origin is its host name |
| Urls.HostHeaderWithoutScheme | wp-varnish-cache-purger.php:797-805 | An endpoint written without a scheme yields no Host header |
| Urls.PathAndQueryOfRequestUrl | wp-varnish-cache-purger.php:770-823 | Round trip: `get_path_and_query` of a built request URL returns the normalised path and the query it was built from |
| Urls.SwapParses | wp-varnish-cache-purger.php:828-839 | A URL moved onto an origin parses into the origin's scheme and host with the original path and query |
| Urls.SwapKeepsPathAndQuery | wp-varnish-cache-purger.php:828-839 | Moving an absolute URL onto another origin keeps its path and query |
| Urls.SwapSetsHostHeader | wp-varnish-cache-purger.php:797-839 | After the move, the URL's Host header is that of the new origin |
| Urls.ParseOriginPathQuery | wp-varnish-cache-purger.php:812-839 | An origin followed by an absolute path and an optional query parses back into exactly those parts |
| Clock.SetTime | wp-varnish-cache-purger.php:988 | `setTime` stays on the same local day and lands on the requested time of day |
| Clock.TimeOfDay | wp-varnish-cache-purger.php:985 | The configured time is the parsed hour and minute in seconds, or midnight when the setting does not parse |
| Clock.PhpMod | wp-varnish-cache-purger.php:1007 | PHP's `%` agrees with the mathematical remainder for non-negative operands and is non-positive for negative ones |
| Clock.DailyRunBounds | wp-varnish-cache-purger.php:983-995 | The daily first run is strictly after now, at most a day later, at the configured time of day |
| Clock.DailyRunIsNext | wp-varnish-cache-purger.php:983-995 | No instant between now and the daily first run is at the configured time of day |
| Clock.WeeklyRunBounds | wp-varnish-cache-purger.php:1000-1018 | For a weekday in 0..6, the weekly first run is strictly after now, at most a week later, on that weekday, at the configured time |
| Clock.WeeklyRunIsNext | wp-varnish-cache-purger.php:1000-1018 | No instant between now and the weekly first run is on the configured weekday at the configured time |
| Dispatch.SetHeader | wp-varnish-cache-purger.php:876-881 | Assigning a header sets that name's value, leaves every other name's value alone and adds the name |
| Dispatch.RequestHeaders | wp-varnish-cache-purger.php:869-881 | The request carries the custom header only when both name and value are non-empty, and `Host` only when a Host header is given. A given Host header wins over a custom header named `Host`. |
| Dispatch.SendPurgeRequest | wp-varnish-cache-purger.php:863-910 | An empty URL sends and logs nothing. Any other URL sends one `PURGE` with a 10-second timeout and the request headers. Every log line names the URL and context, and the first line is the `PURGE` announcement exactly when logging is verbose. |
| Dispatch.Report | wp-varnish-cache-purger.php:887-909 | Nothing is reported exactly when the transport answered with a status below 400 |
| Dispatch.OutcomeClassification | wp-varnish-cache-purger.php:883-909 | A transport error is always logged. An error status is logged in detail (with the truncated body) when verbose and briefly otherwise. A success adds nothing beyond the verbose announcement. |
| Dispatch.RenderPrefix | wp-varnish-cache-purger.php:1050-1056 | Every log line starts with the plugin's prefix |
| Dispatch.DetailedExtendsShort | wp-varnish-cache-purger.php:897-906 | The detailed report of a bad status extends the brief one |
| Dispatch.TruncateForLog | wp-varnish-cache-purger.php:1091-1103 | A blank body gives `(empty)`. A trimmed body within the limit is kept. A longer one is cut to the limit and followed by `...`. |
| Dispatch.TruncateForLogBound | wp-varnish-cache-purger.php:1091-1103 | A logged body never exceeds the limit plus three characters, or the seven of `(empty)` |
| Dispatch.StringifyHeadersSplit | wp-varnish-cache-purger.php:1063-1086 | Splitting the header dump at `;` gives back one `name: value` piece per header, in order, when no header holds a `;` |
| Planner.ScheduledRunFollowsLoops | wp-varnish-cache-purger.php:244-256 | The scheduled run makes one call per pair the two loops visit, in loop order, so exactly \|hosts\|·\|paths\| calls |
| Planner.ScheduledPairsGrid | wp-varnish-cache-purger.php:248-255 | The pairs the nested loops visit are the row-by-row grid of hosts × paths: pair k is host k / \|paths\| with path k mod \|paths\| |
| Planner.ScheduledCallAt | wp-varnish-cache-purger.php:244-256 | The calls run host by host and, within a host, path by path: the call at position RowStart(i, \|paths\|) + j = i·\|paths\| + j purges path j through host i (or the purge server) with host i's Host header |
| Planner.ScheduledPairCell | wp-varnish-cache-purger.php:248-255 | Pair i·\|paths\| + j of the two loops is host i with path j |
| Planner.ScheduledPairsLength | wp-varnish-cache-purger.php:248-255 | The two loops of the scheduled run visit \|hosts\|·\|paths\| pairs |
| Planner.ScheduledPairsOrder | wp-varnish-cache-purger.php:248-255 | The pairs for host i occupy the block starting at i·\|paths\| and pair that host with each path in order |
| Planner.ScheduledCallsAllSent | wp-varnish-cache-purger.php:252-253 | Every scheduled call has a non-empty URL and so dispatches a request |
| Planner.HostPairs | wp-varnish-cache-purger.php:251-254 | The inner loop pairs one host with every path, in order |
| Planner.HostEntries | wp-varnish-cache-purger.php:303-314 | Each host contributes the post on that host, then its home page when home purging is on |
| Planner.PostEntriesWithHome | wp-varnish-cache-purger.php:302-315 | With home purging, entries 2k and 2k+1 are the post on host k and host k's home page |
| Planner.PostEntriesWithoutHome | wp-varnish-cache-purger.php:302-315 | Without home purging, entry k is the post on host k |
| Planner.UsableEntries | wp-varnish-cache-purger.php:317-322 | The entries kept are exactly those whose URL and host are both non-empty, and nothing is dropped when all are usable |
| Planner.UsableEntriesAppend | wp-varnish-cache-purger.php:317-322 | The filter keeps entry order: one more entry is appended at the end when usable |
| Planner.EntryCall | wp-varnish-cache-purger.php:324-327 | A kept entry is purged in the given context with its own host's Host header. The URL is built against that host from the path and query of the post moved onto the host, or of the host's home page. |
| Planner.PurgePostUrls | wp-varnish-cache-purger.php:292-329 | A falsy permalink purges nothing, and every call carries the given context |
| Planner.PurgePostUrlsEntries | wp-varnish-cache-purger.php:302-328 | When every entry is usable, call i is the call for entry i |
| Planner.PurgePostUrlsWithHome | wp-varnish-cache-purger.php:292-329 | With home purging and every URL usable, calls 2k and 2k+1 purge, through host k, the post's path and query and then the home page, in the given context with host k's Host header |
| Planner.PurgePostUrlsWithoutHome | wp-varnish-cache-purger.php:292-329 | Without home purging and every URL usable, call k purges the post's path and query through host k, with host k's Host header |
| Planner.PurgePostUrlsCount | wp-varnish-cache-purger.php:292-329 | There are at most one call per host, or two with home purging. The count is exact when every entry is usable. |
| Planner.PurgePostUrlsTargetsHosts | wp-varnish-cache-purger.php:302-327 | Every post-purge call carries the Host header of a configured host |
| Planner.EntryHostConfigured | wp-varnish-cache-purger.php:302-315 | Every entry's host is a configured host |
| Planner.FrontPagePurgedTwice | wp-varnish-cache-purger.php:302-328 | Nothing is deduplicated: for a front-page permalink, the post entry and the home entry of a host produce the same request |
| Planner.TransitionContext | wp-varnish-cache-purger.php:265-284 | The result is `publish` exactly when a non-revision post enters `publish` with purge-on-publish on. It is `update` exactly when a published non-revision post is re-published with purge-on-update on. There is no other context. |
| Planner.HandlePostTransition | wp-varnish-cache-purger.php:265-284 | Something is purged only when a non-revision post enters `publish` and the matching flag is on: purge-on-update for a re-publish, purge-on-publish otherwise. Every call carries `update` or `publish` accordingly. |
| Planner.NonPublishTransitionPurgesNothing | wp-varnish-cache-purger.php:276-283 | A transition to any status other than `publish` purges nothing |
| Scheduler.RegisterCustomSchedules | wp-varnish-cache-purger.php:226-239 | `five_minutes` (300 s) and `fifteen_minutes` (900 s) are added and every other schedule is kept |
| Scheduler.EarliestTimestamp | wp-varnish-cache-purger.php:75 | The next run is the timestamp of some event and no later than any event |
| Scheduler.NextScheduled | wp-varnish-cache-purger.php:75 | There is a next run exactly when an event is registered |
| Scheduler.ChooseInterval | wp-varnish-cache-purger.php:961-966 | The requested schedule is used when registered, else `hourly` |
| Scheduler.FirstRunBounds | wp-varnish-cache-purger.php:968-973 | The first run is in the future and at most a week ahead. `daily` falls within a day at the daily time, `weekly` on the weekly day at the weekly time, and anything else one minute from now. |
| Scheduler.ScheduleEvent | wp-varnish-cache-purger.php:958-977 | Earlier events are cleared. One event remains exactly when the chosen schedule is registered, and it runs on that schedule from the computed first run. |
| Scheduler.ScheduleEventForgetsHistory | wp-varnish-cache-purger.php:958-977 | The events scheduled before play no part: rescheduling from any two cron tables gives the same result |
| Scheduler.ScheduleEventRegisters | wp-varnish-cache-purger.php:958-977 | With `hourly` registered, scheduling always leaves exactly one event on a registered schedule |
| Scheduler.UnknownIntervalFallsBack | wp-varnish-cache-purger.php:963-969 | An unregistered schedule falls back to `hourly`, first running one minute from now |
| Scheduler.Activate | wp-varnish-cache-purger.php:57-60 | Activation leaves exactly the timer the stored settings ask for |
| Scheduler.Deactivate | wp-varnish-cache-purger.php:65-68 | Deactivation leaves nothing scheduled |
| Scheduler.EnsureEventScheduled | wp-varnish-cache-purger.php:73-78 | A truthy next run leaves the events alone. Otherwise the timer the stored settings ask for is created. |
| Scheduler.EnsureEventScheduledIdempotent | wp-varnish-cache-purger.php:73-78 | After an ensure a timer exists, and a second ensure changes nothing |
| Scheduler.MaybeRescheduleOnAdd | wp-varnish-cache-purger.php:195-202 | Another option or a non-array value changes nothing. Adding this option leaves exactly the timer the new value asks for. |
| Scheduler.MaybeRescheduleOnUpdate | wp-varnish-cache-purger.php:210-217 | A non-array value changes nothing. An array value leaves exactly the timer the new value asks for. |
| Scheduler.UpdateUsesNewSettings | wp-varnish-cache-purger.php:210-217 | Saving settings reschedules from the saved value alone, whatever was stored or scheduled before |
| Scheduler.RunKeepsSingleTimer | wp-varnish-cache-purger.php:57-217 | Starting with at most one event, every sequence of hook invocations leaves at most one event |
| Scheduler.DeactivationClears | wp-varnish-cache-purger.php:65-68 | After a deactivation nothing is scheduled, whatever came before |
| Scheduler.LastUpdateWins | wp-varnish-cache-purger.php:210-217 | The last settings update decides the state, whatever hooks ran before it |
| PhpStrings.TrimStripsEdges | wp-varnish-cache-purger.php:1093 | `trim` removes a run of PHP whitespace from each end and nothing else |
| PhpStrings.TrimEmpty | wp-varnish-cache-purger.php:653-656 | A line is skipped as blank (`'' === trim($line)`) exactly when it consists only of PHP whitespace |
| PhpStrings.Trailingslashit | wp-varnish-cache-purger.php:312 | `trailingslashit` is the host without trailing slashes followed by one `/` |
| PhpStrings.ExplodeImplode | wp-varnish-cache-purger.php:1083 | Splitting at a separator that occurs in no piece gives back the joined pieces |
| Dedup.Unique | wp-varnish-cache-purger.php:703 | `array_values(array_unique(...))` keeps every element once, has no duplicates and is no longer than its input |
| Dedup.UniqueOrder | wp-varnish-cache-purger.php:703 | The deduplicated list is in first-occurrence order |
| Dedup.UniqueIdempotent | wp-varnish-cache-purger.php:703 | Deduplicating twice is the same as once |

## Left out

- `wp_remote_request` and `error_log`: the transport is an input (`Dispatch.Outcome`), and the log lines are an output list.
- `esc_url_raw` and `sanitize_text_field`: both are uninterpreted functions in `Settings.Env`, because their WordPress definitions are not part of this model. `sanitize_key` is modelled.
- `wp_parse_url`: `Urls.ParseUrl` is a simplified splitter. It does not handle scheme-relative URLs (`//host/path`), IPv6 literals, or `host:port` without a scheme.
- `get_wordpress_timezone`: the timezone is a fixed UTC offset in seconds, so every day has 86400 seconds and daylight-saving transitions are not modelled.
- `get_settings` and `wp_parse_args`: every operation receives a complete settings snapshot. An override passed to `schedule_event` is likewise a complete snapshot, so merging it with the defaults is the identity. An empty override array, which PHP treats as absent, is not distinguished.
- `is_numeric`: the exponent forms (`1e0`) and hexadecimal are not modelled. Decimal integers, with an optional sign and surrounding whitespace, are modelled, as is a decimal point followed by digits.
- Translation (`__`), the settings page, `render_*`, `register_settings` and the admin notice: these are UI output with no effect on what is purged.
- The WP-Cron table: only the events of the plugin's own hook are modelled. WordPress's execution of due events is not.
- Clock.WeeklyRunBounds: requires the weekday to be in 0..6. This is what `sanitize_weekday` guarantees, and the function is total without it.
- Scheduler.FirstRunBounds: for the same reason, requires the weekday to be in 0..6.
- Settings.SanitizeWeekday: a decimal string is cast by truncating its exact decimal value. PHP's `(int)` goes through a double, so a string such as `"6.99999999999999999"` rounds to 7 in PHP and falls back to Monday, while the model keeps 6. Floating point is not modelled.
- Dispatch.TruncateForLogBound: lengths are counted in characters, while PHP's `strlen` and `substr` count bytes. A multi-byte body is cut at a different place in PHP.
- Settings.ResaveStoredSettings: holds only when `esc_url_raw` and `sanitize_text_field` leave the stored texts unchanged, because those helpers are not interpreted.
- Scheduler.EnsureEventScheduledIdempotent: assumes `now >= 0`, so that a first run is never at timestamp 0, which PHP would treat as falsy.

=== FILE: blocks.dfy ===
/**
 * Nested `foreach` loops that append to one list: each element of the outer list
 * contributes a block of results, and the blocks are laid end to end.
 */
module Blocks {
  /** The blocks of `f` over `xs`, concatenated in the order of `xs`. */
  function Flatten<A, C>(xs: seq<A>, f: A -> seq<C>): seq<C> {
    if |xs| == 0 then [] else f(xs[0]) + Flatten(xs[1..], f)
  }

  /** Where block i starts when blocks of width w are laid end to end: i·w, counted block by block. */
  function RowStart(i: nat, w: nat): nat {
    if i == 0 then 0 else RowStart(i - 1, w) + w
  }

  lemma {:induction false} RowStartIsProduct(i: nat, w: nat)
    ensures RowStart(i, w) == i * w
  {
    if i > 0 {
      RowStartIsProduct(i - 1, w);
      assert (i - 1) * w + w == i * w;
    }
  }

  lemma {:induction false} RowStartMonotone(i: nat, k: nat, w: nat)
    requires i <= k
    ensures RowStart(i, w) <= RowStart(k, w)
    decreases k
  {
    if i < k {
      RowStartMonotone(i, k - 1, w);
    }
  }

  /** With blocks of width w, the result has RowStart(|xs|, w) = |xs|·w elements. */
  lemma {:induction false} FlattenLength<A, C>(xs: seq<A>, f: A -> seq<C>, w: nat)
    requires forall x :: x in xs ==> |f(x)| == w
    ensures |Flatten(xs, f)| == RowStart(|xs|, w)
  {
    if |xs| > 0 {
      assert xs[0] in xs;
      forall x | x in xs[1..] ensures |f(x)| == w { assert x in xs; }
      FlattenLength(xs[1..], f, w);
    }
  }

  /** With blocks of width w, block i occupies positions RowStart(i, w) up to RowStart(i, w) + w. */
  lemma {:induction false} FlattenBlock<A, C>(xs: seq<A>, f: A -> seq<C>, w: nat, i: nat)
    requires forall x :: x in xs ==> |f(x)| == w
    requires i < |xs|
    ensures RowStart(i, w) + w <= |Flatten(xs, f)|
    ensures Flatten(xs, f)[RowStart(i, w)..RowStart(i, w) + w] == f(xs[i])
  {
    var first := f(xs[0]);
    var rest := Flatten(xs[1..], f);
    assert Flatten(xs, f) == first + rest;
    assert |first| == w by { assert xs[0] in xs; }
    if i > 0 {
      forall x | x in xs[1..] ensures |f(x)| == w { assert x in xs; }
      FlattenBlock(xs[1..], f, w, i - 1);
      assert xs[1..][i - 1] == xs[i];
      SliceOfSecond(first, rest, RowStart(i, w), RowStart(i, w) + w);
    } else {
      assert (first + rest)[..w] == first;
    }
  }

  /** A slice that starts at or after the end of `a` lies within `b`. */
  lemma SliceOfSecond<C>(a: seq<C>, b: seq<C>, lo: nat, hi: nat)
    requires |a| <= lo <= hi <= |a| + |b|
    ensures (a + b)[lo..hi] == b[lo - |a|..hi - |a|]
  {
  }

  /** Element k of block i, read off the flattened result. */
  lemma FlattenCell<A, C>(xs: seq<A>, f: A -> seq<C>, w: nat, i: nat, k: nat)
    requires forall x :: x in xs ==> |f(x)| == w
    requires i < |xs| && k < w
    ensures RowStart(i, w) + k < |Flatten(xs, f)|
    ensures Flatten(xs, f)[RowStart(i, w) + k] == f(xs[i])[k]
  {
    FlattenBlock(xs, f, w, i);
    var s := RowStart(i, w);
    assert Flatten(xs, f)[s..s + w][k] == Flatten(xs, f)[s + k];
  }

  /** Every element of the result comes from the block of some element of `xs`. */
  lemma {:induction false} FlattenMembers<A, C>(xs: seq<A>, f: A -> seq<C>, c: C)
    requires c in Flatten(xs, f)
    ensures exists x :: x in xs && c in f(x)
  {
    if c !in f(xs[0]) {
      FlattenMembers(xs[1..], f, c);
      var x :| x in xs[1..] && c in f(x);
      assert x in xs;
    }
  }

  /** The pairs of xs × ys row by row: element k pairs xs[k / |ys|] with ys[k % |ys|]. */
  function Grid<A, B>(xs: seq<A>, ys: seq<B>): seq<(A, B)> {
    seq(|xs| * |ys|, k requires 0 <= k < |xs| * |ys| =>
      GridIndex(|xs|, |ys|, k); (xs[k / |ys|], ys[k % |ys|]))
  }

  /** A position inside an n-by-w grid lies in one of its n rows. */
  lemma GridIndex(n: nat, w: nat, k: nat)
    requires k < n * w
    ensures w > 0 && k / w < n
  {
  }

  /** Position k of an n-by-w grid is column k % w of row k / w. */
  lemma GridPosition(n: nat, w: nat, k: nat)
    requires k < n * w
    ensures w > 0 && k / w < n && k % w < w
    ensures k == RowStart(k / w, w) + k % w
  {
    GridIndex(n, w, k);
    RowStartIsProduct(k / w, w);
  }

  /** Cell (i, j) of the grid sits at position k = RowStart(i, |ys|) + j and pairs xs[i] with ys[j]. */
  lemma GridCell<A, B>(xs: seq<A>, ys: seq<B>, i: nat, j: nat, k: nat)
    requires i < |xs| && j < |ys| && k == RowStart(i, |ys|) + j
    ensures k < |Grid(xs, ys)|
    ensures Grid(xs, ys)[k] == (xs[i], ys[j])
  {
    var w := |ys|;
    RowStartIsProduct(i, w);
    MulAtLeast(|xs| - i, w);
    assert (|xs| - i) * w == |xs| * w - i * w;
    DivModUnique(k, w, i, j);
  }

  /** a·w is at least w for a positive factor a. */
  lemma {:induction false} MulAtLeast(a: int, w: int)
    requires a >= 1 && w > 0
    ensures a * w >= w
    decreases a
  {
    if a > 1 {
      MulAtLeast(a - 1, w);
      assert a * w == (a - 1) * w + w;
    }
  }

  /** Quotient and remainder are the unique q, r with x = q·w + r and 0 <= r < w. */
  lemma DivModUnique(x: int, w: int, q: int, r: int)
    requires w > 0 && 0 <= r < w && x == q * w + r
    ensures x / w == q && x % w == r
  {
    var q', r' := x / w, x % w;
    assert q' * w + r' == q * w + r;
    if q' > q {
      assert (q' - q) * w == r - r';
      MulAtLeast(q' - q, w);
    } else if q' < q {
      assert (q - q') * w == r' - r;
      MulAtLeast(q - q', w);
    }
  }
}

=== FILE: clock.dfy ===
/**
 * First-run times of the daily and weekly schedules. Time is an integer Unix timestamp
 * and the site's timezone a fixed offset in seconds from UTC, so every day has 86400
 * seconds: daylight-saving transitions are abstracted away. 1 January 1970 was a
 * Thursday, which fixes the weekday numbering (0 = Sunday, as PHP's `format('w')`).
 */
module Clock {
  import opened Settings

  const Day: int := 86400

  /** The local calendar day a timestamp falls on, counted from 1 January 1970. */
  function DayNumber(t: int, offset: int): int {
    (t + offset) / Day
  }

  /** Seconds since local midnight. */
  function SecondsIntoDay(t: int, offset: int): (s: int)
    ensures 0 <= s < Day
  {
    (t + offset) % Day
  }

  /** The local weekday, 0 = Sunday … 6 = Saturday. */
  function Weekday(t: int, offset: int): (w: int)
    ensures 0 <= w <= 6
  {
    (DayNumber(t, offset) + 4) % 7
  }

  /** The seconds after midnight an `HH:MM` setting stands for (00:00 when it does not parse). */
  function TimeOfDay(time: string): (s: int)
    ensures 0 <= s < Day && s % 60 == 0
    ensures MatchTimePattern(time).None? ==> s == 0
    ensures MatchTimePattern(time).Some? ==>
      s == MatchTimePattern(time).value.0 * 3600 + MatchTimePattern(time).value.1 * 60
  {
    var hm := ParseTimeToParts(time);
    hm.0 * 3600 + hm.1 * 60
  }

  /** `$now->setTime($hour, $minute, 0)`: the same local day at the given time. */
  function SetTime(now: int, offset: int, seconds: int): (t: int)
    requires 0 <= seconds < Day
    ensures DayNumber(t, offset) == DayNumber(now, offset)
    ensures SecondsIntoDay(t, offset) == seconds
  {
    now - SecondsIntoDay(now, offset) + seconds
  }

  /** PHP's `%` on integers: the remainder takes the sign of the dividend. */
  function PhpMod(a: int, b: int): (r: int)
    requires b > 0
    ensures a >= 0 ==> r == a % b
    ensures a < 0 ==> -b < r <= 0
  {
    if a >= 0 then a % b else -((-a) % b)
  }

  /** `get_daily_run_timestamp($time)` at the instant `now`. */
  function DailyRunTimestamp(time: string, now: int, offset: int): int {
    var target := SetTime(now, offset, TimeOfDay(time));
    if target <= now then target + Day else target
  }

  /** The daily run comes within the next day, at the configured time of day. */
  lemma DailyRunBounds(time: string, now: int, offset: int)
    ensures var r := DailyRunTimestamp(time, now, offset);
      && now < r <= now + Day
      && SecondsIntoDay(r, offset) == TimeOfDay(time)
  {
    var target := SetTime(now, offset, TimeOfDay(time));
    assert now - Day < target < now + Day;
    DayShift(target, offset, 1);
  }

  /** No instant between now and the daily run is at the configured time of day. */
  lemma {:induction false} DailyRunIsNext(time: string, now: int, offset: int, t: int)
    requires now < t < DailyRunTimestamp(time, now, offset)
    ensures SecondsIntoDay(t, offset) != TimeOfDay(time)
  {
    var r := DailyRunTimestamp(time, now, offset);
    DailyRunBounds(time, now, offset);
    if SecondsIntoDay(t, offset) == TimeOfDay(time) {
      SameTimeOfDayApart(t, r, offset);
      assert false;
    }
  }

  /** Two distinct instants at the same local time of day lie whole days apart. */
  lemma SameTimeOfDayApart(t: int, r: int, offset: int)
    requires t < r && SecondsIntoDay(t, offset) == SecondsIntoDay(r, offset)
    ensures r - t == (DayNumber(r, offset) - DayNumber(t, offset)) * Day
    ensures DayNumber(t, offset) < DayNumber(r, offset)
  {
  }

  /** `get_weekly_run_timestamp($weekday, $time)` at the instant `now`. */
  function WeeklyRunTimestamp(weekday: int, time: string, now: int, offset: int): int {
    var target := SetTime(now, offset, TimeOfDay(time));
    var current := Weekday(now, offset);
    var ahead := PhpMod(weekday - current + 7, 7);
    var ahead' := if ahead == 0 && target <= now then 7 else ahead;
    if ahead' > 0 then target + ahead' * Day else target
  }

  /** For a valid weekday the weekly run comes within the next week, on that weekday, at that time. */
  lemma WeeklyRunBounds(weekday: int, time: string, now: int, offset: int)
    requires 0 <= weekday <= 6
    ensures var r := WeeklyRunTimestamp(weekday, time, now, offset);
      && now < r <= now + 7 * Day
      && Weekday(r, offset) == weekday
      && SecondsIntoDay(r, offset) == TimeOfDay(time)
  {
    WeeklyShift(weekday, TimeOfDay(time), now, offset);
  }

  /** The weekly computation for a time of day already in seconds: k days ahead of today's target. */
  lemma WeeklyShift(weekday: int, seconds: int, now: int, offset: int)
    requires 0 <= weekday <= 6 && 0 <= seconds < Day
    ensures var target := SetTime(now, offset, seconds);
      var ahead := PhpMod(weekday - Weekday(now, offset) + 7, 7);
      var k := if ahead == 0 && target <= now then 7 else ahead;
      && now < target + k * Day <= now + 7 * Day
      && Weekday(target + k * Day, offset) == weekday
      && SecondsIntoDay(target + k * Day, offset) == seconds
  {
    var target := SetTime(now, offset, seconds);
    var ahead := (weekday - Weekday(now, offset) + 7) % 7;
    var k := if ahead == 0 && target <= now then 7 else ahead;
    DayShift(target, offset, k);
  }

  /** Moving k whole days keeps the time of day and advances the weekday by k. */
  lemma DayShift(t: int, offset: int, k: int)
    ensures SecondsIntoDay(t + k * Day, offset) == SecondsIntoDay(t, offset)
    ensures DayNumber(t + k * Day, offset) == DayNumber(t, offset) + k
    ensures Weekday(t + k * Day, offset) == (Weekday(t, offset) + k) % 7
  {
  }

  /** No instant between now and the weekly run is on the configured weekday at the configured time. */
  lemma {:induction false} WeeklyRunIsNext(weekday: int, time: string, now: int, offset: int, t: int)
    requires 0 <= weekday <= 6
    requires now < t < WeeklyRunTimestamp(weekday, time, now, offset)
    ensures Weekday(t, offset) != weekday || SecondsIntoDay(t, offset) != TimeOfDay(time)
  {
    var r := WeeklyRunTimestamp(weekday, time, now, offset);
    WeeklyRunBounds(weekday, time, now, offset);
    if Weekday(t, offset) == weekday && SecondsIntoDay(t, offset) == TimeOfDay(time) {
      SameTimeOfDayApart(t, r, offset);
      SameWeekdayApart(DayNumber(t, offset), DayNumber(r, offset));
      assert false;
    }
  }

  /** Distinct days on the same weekday are at least a week apart. */
  lemma SameWeekdayApart(d1: int, d2: int)
    requires d1 < d2 && (d1 + 4) % 7 == (d2 + 4) % 7
    ensures d2 - d1 >= 7
  {
  }
}

=== FILE: dedup.dfy ===
/**
 * `array_values(array_unique($xs))`: duplicates removed, the first occurrence of
 * each value kept, in the order of first occurrence.
 */
module Dedup {

  predicate NoDups<T(==)>(xs: seq<T>) {
    forall i, j :: 0 <= i < j < |xs| ==> xs[i] != xs[j]
  }

  /** The index of the first occurrence of x in xs. */
  function FirstIndex<T(==)>(xs: seq<T>, x: T): (k: nat)
    requires x in xs
    ensures k < |xs| && xs[k] == x
    ensures forall j :: 0 <= j < k ==> xs[j] != x
  {
    if xs[0] == x then 0 else 1 + FirstIndex(xs[1..], x)
  }

  /** A value present in a prefix has the same first index in the whole sequence. */
  lemma FirstIndexPrefix<T>(xs: seq<T>, n: nat, x: T)
    requires n <= |xs| && x in xs[..n]
    ensures FirstIndex(xs, x) == FirstIndex(xs[..n], x)
  {
    var k := FirstIndex(xs[..n], x);
    var m := FirstIndex(xs, x);
    assert xs[..n][k] == xs[k];
    assert m < n ==> xs[..n][m] == xs[m];
  }

  /** array_unique as PHP evaluates it: walk the input, keep a value unless already kept. */
  function Unique<T(==)>(xs: seq<T>): (r: seq<T>)
    ensures NoDups(r)
    ensures forall i :: 0 <= i < |r| ==> r[i] in xs
    ensures forall i :: 0 <= i < |xs| ==> xs[i] in r
    ensures |r| <= |xs|
  {
    if |xs| == 0 then []
    else
      var p := xs[..|xs| - 1];
      var last := xs[|xs| - 1];
      var d := Unique(p);
      assert xs == p + [last];
      assert |d| <= |p| by {
        DistinctInSmaller(d, p);
      }
      if last in d then d else d + [last]
  }

  /** r lists values of xs in the order of their first occurrence in xs. */
  predicate InFirstOccurrenceOrder<T(==)>(xs: seq<T>, r: seq<T>)
    requires forall i :: 0 <= i < |r| ==> r[i] in xs
  {
    forall i, j :: 0 <= i < j < |r| ==> FirstIndex(xs, r[i]) < FirstIndex(xs, r[j])
  }

  /** Unique lists the kept values in the order of their first occurrence in the input. */
  lemma {:induction false} UniqueOrder<T>(xs: seq<T>)
    ensures InFirstOccurrenceOrder(xs, Unique(xs))
  {
    if |xs| > 0 {
      var p := xs[..|xs| - 1];
      var last := xs[|xs| - 1];
      var d := Unique(p);
      UniqueOrder(p);
      assert xs == p + [last];
      OrderInPrefix(xs, |xs| - 1, d);
      if last !in d {
        assert last !in p;
        OrderAppendLast(xs, d);
      }
    }
  }

  /** A value first seen at the end of xs may follow values already in first-occurrence order. */
  lemma OrderAppendLast<T>(xs: seq<T>, d: seq<T>)
    requires |xs| > 0 && xs[|xs| - 1] !in xs[..|xs| - 1]
    requires forall i :: 0 <= i < |d| ==> d[i] in xs[..|xs| - 1]
    requires forall i :: 0 <= i < |d| ==> d[i] in xs
    requires InFirstOccurrenceOrder(xs, d)
    ensures InFirstOccurrenceOrder(xs, d + [xs[|xs| - 1]])
  {
    var n := |xs| - 1;
    var r := d + [xs[n]];
    assert FirstIndex(xs, xs[n]) == n;
    forall i | 0 <= i < |d| ensures FirstIndex(xs, d[i]) < n {
      FirstIndexPrefix(xs, n, d[i]);
    }
    forall i, j | 0 <= i < j < |r| ensures FirstIndex(xs, r[i]) < FirstIndex(xs, r[j]) {
      assert r[i] == d[i];
      if j < |d| {
        assert r[j] == d[j];
      }
    }
  }

  /** Order of first occurrence within a prefix carries over to the whole sequence. */
  lemma OrderInPrefix<T>(xs: seq<T>, n: nat, d: seq<T>)
    requires n <= |xs|
    requires forall i :: 0 <= i < |d| ==> d[i] in xs[..n]
    requires InFirstOccurrenceOrder(xs[..n], d)
    ensures forall i :: 0 <= i < |d| ==> d[i] in xs
    ensures InFirstOccurrenceOrder(xs, d)
  {
    forall i | 0 <= i < |d| ensures d[i] in xs && FirstIndex(xs, d[i]) == FirstIndex(xs[..n], d[i]) {
      FirstIndexPrefix(xs, n, d[i]);
    }
  }

  /** A duplicate-free sequence drawn from ys is no longer than ys. */
  lemma DistinctInSmaller<T>(d: seq<T>, ys: seq<T>)
    requires NoDups(d)
    requires forall i :: 0 <= i < |d| ==> d[i] in ys
    ensures |d| <= |ys|
  {
    var sd := set i | 0 <= i < |d| :: d[i];
    var sy := set i | 0 <= i < |ys| :: ys[i];
    assert sd <= sy;
    SetSizeOfDistinct(d);
    SetSizeBound(ys);
    assert |sd| <= |sy| by { SubsetCard(sd, sy); }
  }

  lemma SubsetCard<T>(a: set<T>, b: set<T>)
    requires a <= b
    ensures |a| <= |b|
  {
    assert b == a + (b - a);
  }

  /** The values of a duplicate-free sequence form a set of the same size. */
  lemma {:induction false} SetSizeOfDistinct<T>(d: seq<T>)
    requires NoDups(d)
    ensures |set i | 0 <= i < |d| :: d[i]| == |d|
  {
    if |d| > 0 {
      var p := d[..|d| - 1];
      SetSizeOfDistinct(p);
      var sp := set i | 0 <= i < |p| :: p[i];
      var sd := set i | 0 <= i < |d| :: d[i];
      assert d[|d| - 1] !in sp;
      assert sd == sp + {d[|d| - 1]};
    }
  }

  /** The values of a sequence form a set no larger than the sequence. */
  lemma {:induction false} SetSizeBound<T>(ys: seq<T>)
    ensures |set i | 0 <= i < |ys| :: ys[i]| <= |ys|
  {
    if |ys| > 0 {
      var p := ys[..|ys| - 1];
      SetSizeBound(p);
      var sp := set i | 0 <= i < |p| :: p[i];
      var sy := set i | 0 <= i < |ys| :: ys[i];
      assert sy == sp + {ys[|ys| - 1]};
    }
  }

  /** A sequence without duplicates is left unchanged. */
  lemma {:induction false} UniqueNoDups<T>(xs: seq<T>)
    requires NoDups(xs)
    ensures Unique(xs) == xs
  {
    if |xs| > 0 {
      var p := xs[..|xs| - 1];
      UniqueNoDups(p);
      assert xs[|xs| - 1] !in p;
      assert p + [xs[|xs| - 1]] == xs;
    }
  }

  /** A property every input value has, every kept value has. */
  lemma UniqueKeeps<T>(xs: seq<T>, P: T -> bool)
    requires forall i :: 0 <= i < |xs| ==> P(xs[i])
    ensures forall i :: 0 <= i < |Unique(xs)| ==> P(Unique(xs)[i])
  {
    var r := Unique(xs);
    forall i | 0 <= i < |r| ensures P(r[i]) {
      var k :| 0 <= k < |xs| && xs[k] == r[i];
    }
  }

  /** Removing duplicates twice is the same as removing them once. */
  lemma UniqueIdempotent<T>(xs: seq<T>)
    ensures Unique(Unique(xs)) == Unique(xs)
  {
    UniqueNoDups(Unique(xs));
  }
}

=== FILE: dispatch.dfy ===
/**
 * One PURGE request: the request descriptor `send_purge_request` hands to the HTTP
 * transport, and the log lines it writes for the transport's outcome. The transport
 * itself is not modelled: its outcome (an error, or a status code with headers and
 * body) is an input.
 */
module Dispatch {
  import opened Wrappers
  import opened PhpStrings
  import opened Settings

  // ---------------------------------------------------------------------------
  // request headers: a PHP associative array, in insertion order

  type HeaderList = seq<(string, string)>

  /** The value stored under a name, if any (names are compared exactly, as PHP array keys). */
  function Lookup(hs: HeaderList, name: string): Option<string> {
    if |hs| == 0 then None
    else if hs[0].0 == name then Some(hs[0].1)
    else Lookup(hs[1..], name)
  }

  /** The names present in a header list. */
  function Names(hs: HeaderList): set<string> {
    set i | 0 <= i < |hs| :: hs[i].0
  }

  /** `$headers[$name] = $value`: an existing name keeps its place and takes the new value. */
  function SetHeader(hs: HeaderList, name: string, value: string): (r: HeaderList)
    ensures Lookup(r, name) == Some(value)
    ensures forall other :: other != name ==> Lookup(r, other) == Lookup(hs, other)
    ensures Names(r) == Names(hs) + {name}
  {
    if |hs| == 0 then [(name, value)]
    else if hs[0].0 == name then
      assert Names([(name, value)] + hs[1..]) == Names(hs) by {
        NamesCons((name, value), hs[1..]);
        NamesCons(hs[0], hs[1..]);
        assert hs == [hs[0]] + hs[1..];
      }
      [(name, value)] + hs[1..]
    else
      var rest := SetHeader(hs[1..], name, value);
      NamesCons(hs[0], rest);
      NamesCons(hs[0], hs[1..]);
      assert hs == [hs[0]] + hs[1..];
      [hs[0]] + rest
  }

  lemma NamesCons(h: (string, string), hs: HeaderList)
    ensures Names([h] + hs) == {h.0} + Names(hs)
  {
    var l := [h] + hs;
    forall n | n in Names(l) ensures n in {h.0} + Names(hs) {
      var i :| 0 <= i < |l| && l[i].0 == n;
      if i > 0 {
        assert hs[i - 1].0 == n;
      }
    }
    forall n | n in {h.0} + Names(hs) ensures n in Names(l) {
      if n != h.0 {
        var i :| 0 <= i < |hs| && hs[i].0 == n;
        assert l[i + 1].0 == n;
      } else {
        assert l[0].0 == n;
      }
    }
  }

  // ---------------------------------------------------------------------------
  // the request

  const PurgeMethod := "PURGE"
  const PurgeTimeout := 10

  /** The arguments of `wp_remote_request`. */
  datatype Request = Request(url: string, httpMethod: string, timeout: int, headers: HeaderList)

  /** The extra header is configured when neither its name nor its value is PHP-empty. */
  predicate HasCustomHeader(s: Settings) {
    !IsEmptyString(s.headerName) && !IsEmptyString(s.headerValue)
  }

  /** The request headers: the configured custom header, then `Host` when one is given. */
  function RequestHeaders(s: Settings, hostHeader: string): (hs: HeaderList)
    ensures Names(hs) == (if HasCustomHeader(s) then {s.headerName} else {})
      + (if hostHeader != "" then {"Host"} else {})
    ensures hostHeader != "" ==> Lookup(hs, "Host") == Some(hostHeader)
    ensures HasCustomHeader(s) && (s.headerName != "Host" || hostHeader == "") ==>
      Lookup(hs, s.headerName) == Some(s.headerValue)
  {
    var custom := if HasCustomHeader(s) then SetHeader([], s.headerName, s.headerValue) else [];
    if hostHeader != "" then SetHeader(custom, "Host", hostHeader) else custom
  }

  // ---------------------------------------------------------------------------
  // the transport's answer

  /** A header value as the transport reports it: one string or a list of strings. */
  datatype HeaderValue = One(text: string) | Many(texts: seq<string>)

  /** Response headers: a name/value map, a raw string, or anything else. */
  datatype ResponseHeaders =
    | HeaderMap(entries: seq<(string, HeaderValue)>)
    | HeaderText(raw: string)
    | NoHeaders

  /** The outcome of `wp_remote_request`. */
  datatype Outcome =
    | TransportError(message: string)
    | Response(code: int, headers: ResponseHeaders, body: string)

  // ---------------------------------------------------------------------------
  // log lines

  const LogPrefix := "[WP Varnish Cache Purger] "

  /** The default size limit `truncate_for_log` applies to a response body. */
  const BodyLogLimit: nat := 1000

  /** What `send_purge_request` writes to the error log. */
  datatype LogEntry =
    | Purging(url: string, context: string)
    | Failed(url: string, context: string, message: string)
    | Unexpected(code: int, url: string, context: string)
    | UnexpectedDetailed(code: int, url: string, context: string, headers: string, body: string)

  /** The brief report of an unexpected status. */
  function UnexpectedText(code: int, url: string, context: string): string {
    LogPrefix + "Unexpected response " + IntToString(code) + " while purging " + url + " (" + context + ")"
  }

  /** The text of a log line, as `error_log` receives it. */
  function Render(e: LogEntry): string {
    match e
    case Purging(url, context) => LogPrefix + "PURGE " + url + " (" + context + ")"
    case Failed(url, context, message) =>
      LogPrefix + "Failed to purge " + url + " (" + context + "): " + message
    case Unexpected(code, url, context) => UnexpectedText(code, url, context)
    case UnexpectedDetailed(code, url, context, headers, body) =>
      UnexpectedText(code, url, context) + ". Headers: " + headers + ". Body: " + body
  }

  /** Every line carries the plugin's prefix. */
  lemma RenderPrefix(e: LogEntry)
    ensures |Render(e)| > |LogPrefix| && Render(e)[..|LogPrefix|] == LogPrefix
  {
  }

  /** The detailed report of a bad status extends the short one. */
  lemma DetailedExtendsShort(code: int, url: string, context: string, headers: string, body: string)
    ensures var short := Render(Unexpected(code, url, context));
      var long := Render(UnexpectedDetailed(code, url, context, headers, body));
      |short| < |long| && long[..|short|] == short
  {
  }

  /** `truncate_for_log($body, $limit)`. */
  function TruncateForLog(body: string, limit: nat): (r: string)
    ensures Trim(body) == "" ==> r == "(empty)"
    ensures Trim(body) != "" && |Trim(body)| <= limit ==> r == Trim(body)
    ensures |Trim(body)| > limit ==> |r| == limit + 3 && r[..limit] == Trim(body)[..limit] && r[limit..] == "..."
  {
    var t := Trim(body);
    if t == "" then "(empty)"
    else if |t| <= limit then t
    else t[..limit] + "..."
  }

  /** A logged body is never longer than the limit plus the ellipsis, or the empty marker. */
  lemma TruncateForLogBound(body: string, limit: nat)
    ensures |TruncateForLog(body, limit)| <= if limit + 3 < 7 then 7 else limit + 3
  {
  }

  /** The text of one header value: a list is joined with `, `. */
  function HeaderValueText(v: HeaderValue): string {
    match v
    case One(t) => t
    case Many(ts) => Implode(", ", ts)
  }

  /** One `name: value` entry of the headers dump. */
  function HeaderLine(e: (string, HeaderValue)): string {
    e.0 + ": " + HeaderValueText(e.1)
  }

  function HeaderLines(es: seq<(string, HeaderValue)>): (ls: seq<string>)
    ensures |ls| == |es|
    ensures forall i :: 0 <= i < |es| ==> ls[i] == HeaderLine(es[i])
  {
    if |es| == 0 then [] else [HeaderLine(es[0])] + HeaderLines(es[1..])
  }

  /** `stringify_headers($headers)`. */
  function StringifyHeaders(h: ResponseHeaders): string {
    match h
    case HeaderMap(es) => Implode("; ", HeaderLines(es))
    case HeaderText(raw) => raw
    case NoHeaders => ""
  }

  /** Each piece after the first, as it follows a `; ` separator. */
  function Spaced(ps: seq<string>): (r: seq<string>)
    ensures |r| == |ps|
    ensures forall i :: 0 <= i < |ps| ==> r[i] == " " + ps[i]
  {
    if |ps| == 0 then [] else [" " + ps[0]] + Spaced(ps[1..])
  }

  /** Joining with `; ` is joining with `;` after a space is put before every later piece. */
  lemma {:induction false} ImplodeSemicolonSpace(ps: seq<string>)
    requires |ps| >= 1
    ensures Implode("; ", ps) == Implode(";", [ps[0]] + Spaced(ps[1..]))
    decreases |ps|
  {
    if |ps| > 1 {
      var tail := [ps[1]] + Spaced(ps[2..]);
      ImplodeSemicolonSpace(ps[1..]);
      assert ps[1..][1..] == ps[2..];
      assert Spaced(ps[1..]) == [" " + ps[1]] + Spaced(ps[2..]);
      ImplodeHeadPrefix(";", " ", ps[1], Spaced(ps[2..]));
      assert ([ps[0]] + Spaced(ps[1..]))[1..] == Spaced(ps[1..]);
      assert ps[0] + "; " + Implode(";", tail) == ps[0] + ";" + (" " + Implode(";", tail));
    }
  }

  /** Text put before the first piece ends up at the front of the joined string. */
  lemma ImplodeHeadPrefix(sep: string, a: string, p: string, rest: seq<string>)
    ensures Implode(sep, [a + p] + rest) == a + Implode(sep, [p] + rest)
  {
    assert ([a + p] + rest)[1..] == rest;
    assert ([p] + rest)[1..] == rest;
  }

  /** Splitting the headers dump at `;` gives back one piece per header when no header holds a `;`. */
  lemma StringifyHeadersSplit(es: seq<(string, HeaderValue)>)
    requires |es| >= 1
    requires forall i :: 0 <= i < |es| ==> ';' !in HeaderLine(es[i])
    ensures var pieces := Explode(StringifyHeaders(HeaderMap(es)), ';');
      && |pieces| == |es|
      && pieces[0] == HeaderLine(es[0])
      && forall i :: 1 <= i < |es| ==> pieces[i] == " " + HeaderLine(es[i])
  {
    var ls := HeaderLines(es);
    var parts := [ls[0]] + Spaced(ls[1..]);
    ImplodeSemicolonSpace(ls);
    assert forall i :: 0 <= i < |parts| ==> ';' !in parts[i] by {
      forall i | 0 <= i < |parts| ensures ';' !in parts[i] {
        if i > 0 {
          assert parts[i] == " " + ls[i];
        }
      }
    }
    ExplodeImplode(parts, ';');
    forall i | 1 <= i < |es| ensures parts[i] == " " + HeaderLine(es[i]) {
      assert parts[i] == Spaced(ls[1..])[i - 1];
    }
  }

  // ---------------------------------------------------------------------------
  // send_purge_request

  /** The request sent (None when the URL is empty) and the lines logged, in order. */
  datatype Dispatched = Dispatched(request: Option<Request>, log: seq<LogEntry>)

  /** A status the plugin reports as unexpected. */
  predicate IsErrorStatus(code: int) {
    code >= 400
  }

  /**
   * `send_purge_request($url, $context, $host_header)` against the settings snapshot `s`,
   * with `outcome` standing for what the transport returned.
   */
  function SendPurgeRequest(url: string, context: string, hostHeader: string, s: Settings, outcome: Outcome)
    : (d: Dispatched)
    ensures d.request.None? <==> url == ""
    ensures url == "" ==> d.log == []
    ensures d.request.Some? ==>
      d.request.value == Request(url, PurgeMethod, PurgeTimeout, RequestHeaders(s, hostHeader))
    ensures forall i :: 0 <= i < |d.log| ==> d.log[i].url == url && d.log[i].context == context
    ensures url != "" ==> (|d.log| > 0 && d.log[0] == Purging(url, context) <==> s.verboseLogging)
  {
    if url == "" then Dispatched(None, [])
    else
      var request := Request(url, PurgeMethod, PurgeTimeout, RequestHeaders(s, hostHeader));
      var announce := if s.verboseLogging then [Purging(url, context)] else [];
      var report := match Report(url, context, s, outcome)
        case Some(e) => [e]
        case None => [];
      Dispatched(Some(request), announce + report)
  }

  /** The log entry that reports the outcome, if the outcome needs one. */
  function Report(url: string, context: string, s: Settings, outcome: Outcome): (r: Option<LogEntry>)
    ensures r.None? <==> outcome.Response? && !IsErrorStatus(outcome.code)
  {
    match outcome
    case TransportError(message) => Some(Failed(url, context, message))
    case Response(code, headers, body) =>
      if !IsErrorStatus(code) then None
      else if s.verboseLogging then
        Some(UnexpectedDetailed(code, url, context, StringifyHeaders(headers), TruncateForLog(body, BodyLogLimit)))
      else Some(Unexpected(code, url, context))
  }

  /**
   * Classification of the outcome: a transport error is always logged, whatever the
   * verbosity; an error status is logged in detail when verbose and briefly otherwise;
   * a success status adds nothing beyond the verbose announcement.
   */
  lemma OutcomeClassification(url: string, context: string, hostHeader: string, s: Settings, outcome: Outcome)
    requires url != ""
    ensures var d := SendPurgeRequest(url, context, hostHeader, s, outcome);
      && (outcome.TransportError? ==> d.log[|d.log| - 1] == Failed(url, context, outcome.message))
      && (outcome.Response? && IsErrorStatus(outcome.code) && s.verboseLogging ==>
            d.log[|d.log| - 1].UnexpectedDetailed? && d.log[|d.log| - 1].code == outcome.code
            && d.log[|d.log| - 1].body == TruncateForLog(outcome.body, BodyLogLimit))
      && (outcome.Response? && IsErrorStatus(outcome.code) && !s.verboseLogging ==>
            d.log == [Unexpected(outcome.code, url, context)])
      && (outcome.Response? && !IsErrorStatus(outcome.code) ==>
            d.log == if s.verboseLogging then [Purging(url, context)] else [])
      && (|d.log| == (if s.verboseLogging then 1 else 0) + (if Report(url, context, s, outcome).Some? then 1 else 0))
  {
  }
}

=== FILE: php_strings.dfy ===
/**
 * The PHP and WordPress string primitives the purger is built from: trim, ltrim and
 * rtrim with a character list, explode and implode, PHP's empty() on strings,
 * decimal rendering (`%d`, `(string) $int`) and parsing of digit runs, and the
 * WordPress helpers untrailingslashit and trailingslashit.
 *
 * A string is a sequence of characters; wherever PHP counts bytes (strlen, substr)
 * one character stands for one byte.
 */
module PhpStrings {

  /** The characters PHP's trim() strips when it is given no character list. */
  const TrimSpace: set<char> := {' ', '\t', '\n', '\r', '\0', '\U{000B}'}

  /** The characters untrailingslashit() strips: forward slash and backslash. */
  const TrailingSlashes: set<char> := {'/', '\\'}

  /** PHP's empty() on a string: true for "" and for "0". */
  predicate IsEmptyString(s: string) {
    s == "" || s == "0"
  }

  predicate AllIn(s: string, cs: set<char>) {
    forall i :: 0 <= i < |s| ==> s[i] in cs
  }

  /** ltrim($s, $chars): the suffix left after dropping every leading character in cs. */
  function LTrim(s: string, cs: set<char>): (r: string)
    ensures |r| <= |s|
    ensures |r| > 0 ==> r[0] !in cs
    decreases |s|
  {
    if |s| > 0 && s[0] in cs then LTrim(s[1..], cs) else s
  }

  /** rtrim($s, $chars): the prefix left after dropping every trailing character in cs. */
  function RTrim(s: string, cs: set<char>): (r: string)
    ensures |r| <= |s|
    ensures |r| > 0 ==> r[|r| - 1] !in cs
    decreases |s|
  {
    if |s| > 0 && s[|s| - 1] in cs then RTrim(s[..|s| - 1], cs) else s
  }

  /** trim($s): whitespace (TrimSpace) removed from both ends. */
  function Trim(s: string): (r: string)
    ensures |r| <= |s|
    ensures |r| > 0 ==> r[0] !in TrimSpace && r[|r| - 1] !in TrimSpace
  {
    var l := LTrim(s, TrimSpace);
    var r := RTrim(l, TrimSpace);
    RTrimPrefix(l, TrimSpace);
    assert |r| > 0 ==> r[0] == l[0];
    r
  }

  /** trim removes a run of whitespace from each end and nothing else. */
  lemma TrimStripsEdges(s: string)
    ensures exists i ::
      && 0 <= i <= |s| - |Trim(s)|
      && s[i..i + |Trim(s)|] == Trim(s)
      && AllIn(s[..i], TrimSpace) && AllIn(s[i + |Trim(s)|..], TrimSpace)
  {
    var l := LTrim(s, TrimSpace);
    var r := Trim(s);
    var i := |s| - |l|;
    LTrimSuffix(s, TrimSpace);
    LTrimDropsOnly(s, TrimSpace);
    RTrimPrefix(l, TrimSpace);
    RTrimDropsOnly(l, TrimSpace);
    assert s[i..i + |r|] == l[..|r|];
    assert s[i + |r|..] == l[|r|..];
  }

  /** trim leaves nothing exactly when the string is all whitespace. */
  lemma TrimEmpty(s: string)
    ensures Trim(s) == "" <==> AllIn(s, TrimSpace)
  {
    var l := LTrim(s, TrimSpace);
    LTrimSuffix(s, TrimSpace);
    LTrimDropsOnly(s, TrimSpace);
    RTrimPrefix(l, TrimSpace);
    RTrimDropsOnly(l, TrimSpace);
    assert s == s[..|s| - |l|] + l;
    if Trim(s) == "" {
      assert l[|RTrim(l, TrimSpace)|..] == l;
    }
  }

  /** ltrim keeps a suffix of its input. */
  lemma {:induction false} LTrimSuffix(s: string, cs: set<char>)
    ensures LTrim(s, cs) == s[|s| - |LTrim(s, cs)|..]
    decreases |s|
  {
    if |s| > 0 && s[0] in cs {
      LTrimSuffix(s[1..], cs);
    }
  }

  /** rtrim keeps a prefix of its input. */
  lemma {:induction false} RTrimPrefix(s: string, cs: set<char>)
    ensures RTrim(s, cs) == s[..|RTrim(s, cs)|]
    decreases |s|
  {
    if |s| > 0 && s[|s| - 1] in cs {
      RTrimPrefix(s[..|s| - 1], cs);
    }
  }

  /** ltrim drops nothing but characters in cs. */
  lemma {:induction false} LTrimDropsOnly(s: string, cs: set<char>)
    ensures AllIn(s[..|s| - |LTrim(s, cs)|], cs)
    decreases |s|
  {
    if |s| > 0 && s[0] in cs {
      LTrimDropsOnly(s[1..], cs);
      LTrimSuffix(s[1..], cs);
      assert s[..|s| - |LTrim(s, cs)|] == [s[0]] + s[1..][..|s| - 1 - |LTrim(s[1..], cs)|];
    }
  }

  /** rtrim drops nothing but characters in cs. */
  lemma {:induction false} RTrimDropsOnly(s: string, cs: set<char>)
    ensures AllIn(s[|RTrim(s, cs)|..], cs)
    decreases |s|
  {
    if |s| > 0 && s[|s| - 1] in cs {
      RTrimDropsOnly(s[..|s| - 1], cs);
      RTrimPrefix(s[..|s| - 1], cs);
      assert s[|RTrim(s, cs)|..] == s[..|s| - 1][|RTrim(s[..|s| - 1], cs)|..] + [s[|s| - 1]];
    }
  }

  /** ltrim is the identity on a string that does not start with a character in cs. */
  lemma LTrimNoop(s: string, cs: set<char>)
    requires |s| == 0 || s[0] !in cs
    ensures LTrim(s, cs) == s
  {
  }

  /** rtrim is the identity on a string that does not end with a character in cs. */
  lemma RTrimNoop(s: string, cs: set<char>)
    requires |s| == 0 || s[|s| - 1] !in cs
    ensures RTrim(s, cs) == s
  {
  }

  /** trim is the identity on a string with no whitespace at either end; so trim is idempotent. */
  lemma TrimNoop(s: string)
    requires |s| == 0 || (s[0] !in TrimSpace && s[|s| - 1] !in TrimSpace)
    ensures Trim(s) == s
  {
    LTrimNoop(s, TrimSpace);
    RTrimNoop(s, TrimSpace);
  }

  /** untrailingslashit($s): trailing forward slashes and backslashes removed. */
  function Untrailingslashit(s: string): (r: string)
    ensures |r| <= |s|
    ensures |r| > 0 ==> r[|r| - 1] !in TrailingSlashes
  {
    RTrim(s, TrailingSlashes)
  }

  /** trailingslashit($s): exactly one trailing slash. */
  function Trailingslashit(s: string): (r: string)
    ensures |r| >= 1 && r[|r| - 1] == '/'
    ensures |r| == 1 || r[|r| - 2] !in TrailingSlashes
    ensures r[..|r| - 1] == Untrailingslashit(s)
  {
    Untrailingslashit(s) + "/"
  }

  // ---------------------------------------------------------------------------
  // explode / implode

  /** explode($d, $s) for a one-character delimiter: the pieces between delimiters. */
  function Explode(s: string, d: char): (parts: seq<string>)
    ensures |parts| >= 1
    ensures forall i :: 0 <= i < |parts| ==> d !in parts[i]
    decreases |s|
  {
    if |s| == 0 then [""]
    else
      var rest := Explode(s[1..], d);
      if s[0] == d then [""] + rest
      else [[s[0]] + rest[0]] + rest[1..]
  }

  /** implode($sep, $parts): the parts joined with sep between neighbours. */
  function Implode(sep: string, parts: seq<string>): string
  {
    if |parts| == 0 then ""
    else if |parts| == 1 then parts[0]
    else parts[0] + sep + Implode(sep, parts[1..])
  }

  /** Joining the pieces of an explode with the same delimiter gives back the string. */
  lemma {:induction false} ImplodeExplode(s: string, d: char)
    ensures Implode([d], Explode(s, d)) == s
    decreases |s|
  {
    if |s| > 0 {
      var rest := Explode(s[1..], d);
      ImplodeExplode(s[1..], d);
      if s[0] == d {
        assert Explode(s, d) == [""] + rest;
        assert ([""] + rest)[1..] == rest;
      } else {
        var parts := [[s[0]] + rest[0]] + rest[1..];
        if |rest| > 1 {
          assert rest == [rest[0]] + rest[1..];
          assert Implode([d], rest) == rest[0] + [d] + Implode([d], rest[1..]);
          assert parts[1..] == rest[1..];
        }
      }
    }
  }

  /** A piece with no delimiter explodes to itself. */
  lemma {:induction false} ExplodeSingle(p: string, d: char)
    requires d !in p
    ensures Explode(p, d) == [p]
    decreases |p|
  {
    if |p| > 0 {
      ExplodeSingle(p[1..], d);
      assert [p[0]] + p[1..] == p;
    }
  }

  /** Exploding p, a delimiter, then rest splits off p as the first piece. */
  lemma {:induction false} ExplodeCons(p: string, d: char, rest: string)
    requires d !in p
    ensures Explode(p + [d] + rest, d) == [p] + Explode(rest, d)
    decreases |p|
  {
    var s := p + [d] + rest;
    if |p| == 0 {
      assert s == [d] + rest;
      assert s[1..] == rest;
    } else {
      assert s[1..] == p[1..] + [d] + rest;
      ExplodeCons(p[1..], d, rest);
      assert [p[0]] + p[1..] == p;
    }
  }

  /** Exploding an implode of delimiter-free parts gives back the parts. */
  lemma {:induction false} ExplodeImplode(parts: seq<string>, d: char)
    requires |parts| >= 1
    requires forall i :: 0 <= i < |parts| ==> d !in parts[i]
    ensures Explode(Implode([d], parts), d) == parts
    decreases |parts|
  {
    if |parts| == 1 {
      ExplodeSingle(parts[0], d);
    } else {
      ExplodeImplode(parts[1..], d);
      ExplodeCons(parts[0], d, Implode([d], parts[1..]));
      assert [parts[0]] + parts[1..] == parts;
    }
  }

  /** Appending one more part to a non-empty implode appends the separator and the part. */
  lemma {:induction false} ImplodeSnoc(sep: string, parts: seq<string>, p: string)
    requires |parts| >= 1
    ensures Implode(sep, parts + [p]) == Implode(sep, parts) + sep + p
    decreases |parts|
  {
    if |parts| == 1 {
      assert (parts + [p])[1..] == [p];
    } else {
      assert (parts + [p])[1..] == parts[1..] + [p];
      ImplodeSnoc(sep, parts[1..], p);
    }
  }

  // ---------------------------------------------------------------------------
  // decimal digits

  predicate IsDigit(c: char) {
    '0' <= c <= '9'
  }

  predicate AllDigits(s: string) {
    forall i :: 0 <= i < |s| ==> IsDigit(s[i])
  }

  function DigitValue(c: char): (v: nat)
    requires IsDigit(c)
    ensures v < 10
  {
    c as int - '0' as int
  }

  function DigitChar(n: nat): (c: char)
    requires n < 10
    ensures IsDigit(c) && DigitValue(c) == n
  {
    ('0' as int + n) as char
  }

  /** The value of a run of decimal digits, as PHP's (int) cast reads it (overflow ignored). */
  function DigitsValue(s: string): nat
    requires AllDigits(s)
  {
    if |s| == 0 then 0 else DigitsValue(s[..|s| - 1]) * 10 + DigitValue(s[|s| - 1])
  }

  /** The decimal rendering of a natural number, without leading zeros. */
  function NatToString(n: nat): (r: string)
    ensures |r| >= 1 && AllDigits(r)
    ensures r[0] == '0' ==> n == 0 && |r| == 1
  {
    if n < 10 then [DigitChar(n)]
    else NatToString(n / 10) + [DigitChar(n % 10)]
  }

  /** PHP's `%d` / `(string) $int`: a minus sign, then the digits of the magnitude. */
  function IntToString(n: int): (r: string)
    ensures |r| >= 1
    ensures n >= 0 ==> AllDigits(r)
    ensures n < 0 ==> r[0] == '-' && AllDigits(r[1..])
  {
    if n < 0 then "-" + NatToString(-n) else NatToString(n)
  }

  /** Reading back the decimal rendering of n gives n. */
  lemma {:induction false} NatToStringRoundTrip(n: nat)
    ensures DigitsValue(NatToString(n)) == n
  {
    if n >= 10 {
      NatToStringRoundTrip(n / 10);
      var r := NatToString(n);
      assert r[..|r| - 1] == NatToString(n / 10);
    }
  }

  /** Reading back the digits of `(string) $int`, after its minus sign if any, gives the magnitude. */
  lemma IntToStringMagnitude(n: int)
    ensures n >= 0 ==> DigitsValue(IntToString(n)) == n
    ensures n < 0 ==> DigitsValue(IntToString(n)[1..]) == -n
  {
    if n < 0 {
      NatToStringRoundTrip(-n);
      assert IntToString(n)[1..] == NatToString(-n);
    } else {
      NatToStringRoundTrip(n);
    }
  }

  /** sprintf('%02d', $n) for 0 <= n < 100: two digits, zero-padded. */
  function Pad2(n: nat): (r: string)
    requires n < 100
    ensures |r| == 2 && AllDigits(r)
    ensures DigitsValue(r) == n
  {
    var r := [DigitChar(n / 10), DigitChar(n % 10)];
    assert r[..1] == [DigitChar(n / 10)] && r[..1][..0] == [];
    assert DigitsValue(r[..1]) == n / 10;
    assert DigitsValue(r) == (n / 10) * 10 + n % 10;
    r
  }

  // ---------------------------------------------------------------------------
  // case-insensitive scheme test

  function ToLowerAscii(c: char): (l: char)
    ensures 'A' <= c <= 'Z' ==> 'a' <= l <= 'z'
    ensures !('A' <= c <= 'Z') ==> l == c
  {
    if 'A' <= c <= 'Z' then (c as int + 32) as char else c
  }

  /** s starts with the lower-case ASCII word prefix, letters compared without case. */
  predicate StartsWithIgnoringCase(s: string, prefix: string) {
    |s| >= |prefix| && forall i :: 0 <= i < |prefix| ==> ToLowerAscii(s[i]) == prefix[i]
  }

  /** The test `preg_match('#^https?://#i', $s)`. */
  predicate HasHttpScheme(s: string) {
    StartsWithIgnoringCase(s, "http://") || StartsWithIgnoringCase(s, "https://")
  }

  /** A URL keeps its http(s) scheme whatever is appended to it. */
  lemma HasHttpSchemeAppend(s: string, t: string)
    requires HasHttpScheme(s)
    ensures HasHttpScheme(s + t)
  {
    assert forall i :: 0 <= i < |s| ==> (s + t)[i] == s[i];
  }
}

=== FILE: planner.dfy ===
/**
 * Which PURGE requests the plugin issues: the scheduled run over every configured host
 * and path, and the purge of a post's URLs when a post is published or updated. A plan
 * is first laid out as abstract entries (host and path, or host and kind of URL) and
 * then turned into `send_purge_request` calls.
 */
module Planner {
  import opened Wrappers
  import opened PhpStrings
  import opened Settings
  import opened Urls
  import opened Dispatch
  import opened Blocks
  import opened Sift

  /** The arguments of one `send_purge_request` call. */
  datatype PurgeCall = PurgeCall(url: string, context: string, hostHeader: string)

  const ScheduleContext := "schedule"
  const PublishContext := "publish"
  const UpdateContext := "update"

  // ---------------------------------------------------------------------------
  // run_scheduled_purge

  /** The inner loop of the scheduled run: one host paired with every path. */
  function HostPairs(host: string, paths: seq<string>): (r: seq<(string, string)>)
    ensures |r| == |paths|
    ensures forall j :: 0 <= j < |paths| ==> r[j] == (host, paths[j])
  {
    if |paths| == 0 then [] else [(host, paths[0])] + HostPairs(host, paths[1..])
  }

  /** The inner loop as a function of the host. */
  function PairRow(paths: seq<string>): string -> seq<(string, string)> {
    host => HostPairs(host, paths)
  }

  /** Both loops of the scheduled run: the (host, path) pairs, host by host. */
  function ScheduledPairs(hosts: seq<string>, paths: seq<string>): seq<(string, string)> {
    Flatten(hosts, PairRow(paths))
  }

  /** The call the scheduled run makes for one host and one path. */
  function ScheduledCall(host: string, path: string, purgeServer: string): PurgeCall {
    PurgeCall(BuildPurgeRequestUrl(host, path, "", purgeServer), ScheduleContext, HostHeaderForEndpoint(host))
  }

  /** One call per pair, in order. */
  function PairCalls(pairs: seq<(string, string)>, purgeServer: string): seq<PurgeCall> {
    seq(|pairs|, k requires 0 <= k < |pairs| => ScheduledCall(pairs[k].0, pairs[k].1, purgeServer))
  }

  /**
   * `run_scheduled_purge()` for the settings snapshot `s`, over the (host, path) pairs in
   * closed form; ScheduledPairsGrid shows these are exactly the pairs the two loops visit.
   */
  function RunScheduledPurge(s: Settings): seq<PurgeCall> {
    PairCalls(Grid(s.hosts, s.scheduledPaths), s.purgeServer)
  }

  /** The scheduled run covers |hosts|·|paths| pairs. */
  lemma ScheduledPairsLength(hosts: seq<string>, paths: seq<string>)
    ensures |ScheduledPairs(hosts, paths)| == |hosts| * |paths|
  {
    FlattenLength(hosts, PairRow(paths), |paths|);
    RowStartIsProduct(|hosts|, |paths|);
  }

  /**
   * Host-major, path-minor: the pairs from RowStart(i, |paths|) = i·|paths| on are
   * host i with each path in order.
   */
  lemma ScheduledPairsOrder(hosts: seq<string>, paths: seq<string>)
    ensures forall i :: 0 <= i < |hosts| ==>
      && RowStart(i, |paths|) + |paths| <= |ScheduledPairs(hosts, paths)|
      && ScheduledPairs(hosts, paths)[RowStart(i, |paths|)..RowStart(i, |paths|) + |paths|]
         == HostPairs(hosts[i], paths)
  {
    forall i | 0 <= i < |hosts|
      ensures RowStart(i, |paths|) + |paths| <= |ScheduledPairs(hosts, paths)|
      ensures ScheduledPairs(hosts, paths)[RowStart(i, |paths|)..RowStart(i, |paths|) + |paths|]
         == HostPairs(hosts[i], paths)
    {
      FlattenBlock(hosts, PairRow(paths), |paths|, i);
    }
  }

  /** Pair RowStart(i, |paths|) + j of the loops is host i with path j. */
  lemma ScheduledPairCell(hosts: seq<string>, paths: seq<string>, i: nat, j: nat)
    requires i < |hosts| && j < |paths|
    ensures RowStart(i, |paths|) + j < |ScheduledPairs(hosts, paths)|
    ensures ScheduledPairs(hosts, paths)[RowStart(i, |paths|) + j] == (hosts[i], paths[j])
  {
    FlattenCell(hosts, PairRow(paths), |paths|, i, j);
  }

  /** The two loops visit the pairs of the grid hosts × paths, row by row. */
  lemma ScheduledPairsGrid(hosts: seq<string>, paths: seq<string>)
    ensures ScheduledPairs(hosts, paths) == Grid(hosts, paths)
  {
    var pairs := ScheduledPairs(hosts, paths);
    var grid := Grid(hosts, paths);
    ScheduledPairsLength(hosts, paths);
    forall k | 0 <= k < |grid| ensures pairs[k] == grid[k] {
      GridPosition(|hosts|, |paths|, k);
      var i, j := k / |paths|, k % |paths|;
      ScheduledPairCell(hosts, paths, i, j);
      GridCell(hosts, paths, i, j, k);
    }
  }

  /** The scheduled run makes one call for each pair the loops visit, in the loops' order. */
  lemma ScheduledRunFollowsLoops(s: Settings)
    ensures RunScheduledPurge(s) == PairCalls(ScheduledPairs(s.hosts, s.scheduledPaths), s.purgeServer)
    ensures |RunScheduledPurge(s)| == |s.hosts| * |s.scheduledPaths|
  {
    ScheduledPairsGrid(s.hosts, s.scheduledPaths);
  }

  /**
   * Host-major and path-minor: the call at k = RowStart(i, |paths|) + j = i·|paths| + j
   * purges path j through host i (or the purge server) with host i's Host header.
   */
  lemma ScheduledCallAt(s: Settings, i: nat, j: nat, k: nat)
    requires i < |s.hosts| && j < |s.scheduledPaths| && k == RowStart(i, |s.scheduledPaths|) + j
    ensures k < |RunScheduledPurge(s)|
    ensures RunScheduledPurge(s)[k] == ScheduledCall(s.hosts[i], s.scheduledPaths[j], s.purgeServer)
  {
    GridCell(s.hosts, s.scheduledPaths, i, j, k);
  }

  /** Every scheduled call carries a URL, so each one dispatches a request. */
  lemma ScheduledCallsAllSent(s: Settings, outcome: Outcome)
    ensures forall c :: c in RunScheduledPurge(s) ==>
      SendPurgeRequest(c.url, c.context, c.hostHeader, s, outcome).request.Some?
  {
    forall c | c in RunScheduledPurge(s)
      ensures SendPurgeRequest(c.url, c.context, c.hostHeader, s, outcome).request.Some?
    {
      ScheduledCallHasUrl(s, c);
    }
  }

  lemma ScheduledCallHasUrl(s: Settings, c: PurgeCall)
    requires c in RunScheduledPurge(s)
    ensures c.url != ""
  {
    var pairs := Grid(s.hosts, s.scheduledPaths);
    var calls := PairCalls(pairs, s.purgeServer);
    var k :| 0 <= k < |calls| && calls[k] == c;
    ScheduledCallUrl(pairs[k].0, pairs[k].1, s.purgeServer);
  }

  /** A scheduled call's URL is never empty: it holds at least the path's leading slash. */
  lemma ScheduledCallUrl(host: string, path: string, purgeServer: string)
    ensures ScheduledCall(host, path, purgeServer).url != ""
  {
    BuildPurgeRequestUrlParts(host, path, "", purgeServer);
  }

  // ---------------------------------------------------------------------------
  // purge_post_urls

  /** One entry of the post's URL list: the post on a host, or a host's home page. */
  datatype Entry = PostOn(host: string) | HomeOf(host: string)

  /** The URL an entry stands for. */
  function EntryUrl(e: Entry, permalink: string): string {
    match e
    case PostOn(host) => SwapHostInUrl(permalink, host)
    case HomeOf(host) => Trailingslashit(host)
  }

  /** The entries for one host: the post on that host, then the host's home page if configured. */
  function HostEntries(host: string, purgeHome: bool): (r: seq<Entry>)
    ensures |r| == if purgeHome then 2 else 1
    ensures r[0] == PostOn(host)
    ensures purgeHome ==> r[1] == HomeOf(host)
  {
    [PostOn(host)] + (if purgeHome then [HomeOf(host)] else [])
  }

  /** The per-host entries as a function of the host. */
  function EntryRow(purgeHome: bool): string -> seq<Entry> {
    host => HostEntries(host, purgeHome)
  }

  /** The URL list `purge_post_urls` builds, host by host; nothing is deduplicated. */
  function PostEntries(hosts: seq<string>, purgeHome: bool): seq<Entry> {
    Flatten(hosts, EntryRow(purgeHome))
  }

  /** Per host k, in host order: the post on host k, then host k's home page. */
  lemma PostEntriesWithHome(hosts: seq<string>)
    ensures var r := PostEntries(hosts, true);
      && |r| == 2 * |hosts|
      && (forall k :: 0 <= k < |hosts| ==> r[2 * k] == PostOn(hosts[k]) && r[2 * k + 1] == HomeOf(hosts[k]))
  {
    var f := EntryRow(true);
    FlattenLength(hosts, f, 2);
    RowStartIsProduct(|hosts|, 2);
    forall k | 0 <= k < |hosts|
      ensures PostEntries(hosts, true)[2 * k] == PostOn(hosts[k])
      ensures PostEntries(hosts, true)[2 * k + 1] == HomeOf(hosts[k])
    {
      RowStartIsProduct(k, 2);
      FlattenCell(hosts, f, 2, k, 0);
      FlattenCell(hosts, f, 2, k, 1);
    }
  }

  /** Without home-page purging there is one entry per host: the post on that host. */
  lemma PostEntriesWithoutHome(hosts: seq<string>)
    ensures var r := PostEntries(hosts, false);
      && |r| == |hosts|
      && (forall k :: 0 <= k < |hosts| ==> r[k] == PostOn(hosts[k]))
  {
    var f := EntryRow(false);
    FlattenLength(hosts, f, 1);
    RowStartIsProduct(|hosts|, 1);
    forall k | 0 <= k < |hosts| ensures PostEntries(hosts, false)[k] == PostOn(hosts[k]) {
      RowStartIsProduct(k, 1);
      FlattenCell(hosts, f, 1, k, 0);
    }
  }

  /** An entry is dispatched unless its URL or its host is PHP-empty. */
  predicate Usable(e: Entry, permalink: string) {
    !IsEmptyString(EntryUrl(e, permalink)) && !IsEmptyString(e.host)
  }

  /** The call made for a usable entry: path and query of its URL, rebuilt against its host. */
  function EntryCall(e: Entry, permalink: string, context: string, purgeServer: string): (r: PurgeCall)
    ensures r.context == context && r.hostHeader == HostHeaderForEndpoint(e.host)
    ensures e.PostOn? ==> var pq := GetPathAndQuery(SwapHostInUrl(permalink, e.host));
      r.url == BuildPurgeRequestUrl(e.host, pq.0, pq.1, purgeServer)
    ensures e.HomeOf? ==> var pq := GetPathAndQuery(Trailingslashit(e.host));
      r.url == BuildPurgeRequestUrl(e.host, pq.0, pq.1, purgeServer)
  {
    var pq := GetPathAndQuery(EntryUrl(e, permalink));
    PurgeCall(BuildPurgeRequestUrl(e.host, pq.0, pq.1, purgeServer), context, HostHeaderForEndpoint(e.host))
  }

  /** The emptiness check as a step of the dispatch loop: keep a usable entry, skip the rest. */
  function UsableStep(permalink: string): Entry -> Option<Entry> {
    e => if Usable(e, permalink) then Some(e) else None
  }

  /** The entries that survive the emptiness check, in their original order. */
  function UsableEntries(es: seq<Entry>, permalink: string): (r: seq<Entry>)
    ensures |r| <= |es|
    ensures forall e :: e in r <==> e in es && Usable(e, permalink)
    ensures (forall i :: 0 <= i < |es| ==> Usable(es[i], permalink)) ==> r == es
  {
    UsableEntriesMembers(es, permalink);
    UsableEntriesAll(es, permalink);
    FilterMap(es, UsableStep(permalink))
  }

  lemma UsableEntriesAll(es: seq<Entry>, permalink: string)
    ensures (forall i :: 0 <= i < |es| ==> Usable(es[i], permalink)) ==> FilterMap(es, UsableStep(permalink)) == es
  {
    if forall i :: 0 <= i < |es| ==> Usable(es[i], permalink) {
      FilterMapIdentity(es, UsableStep(permalink));
    }
  }

  lemma UsableEntriesMembers(es: seq<Entry>, permalink: string)
    ensures forall e :: e in FilterMap(es, UsableStep(permalink)) <==> e in es && Usable(e, permalink)
  {
    var f := UsableStep(permalink);
    var r := FilterMap(es, f);
    forall e | e in r ensures e in es && Usable(e, permalink) {
      var k :| 0 <= k < |r| && r[k] == e;
      FilterMapFrom(es, f, k);
    }
    forall e | e in es && Usable(e, permalink) ensures e in r {
      var i :| 0 <= i < |es| && es[i] == e;
      FilterMapCover(es, f, i);
    }
  }

  /** The filter keeps entry order: one more entry is appended after the others, if usable. */
  lemma UsableEntriesAppend(es: seq<Entry>, e: Entry, permalink: string)
    ensures UsableEntries(es + [e], permalink)
         == UsableEntries(es, permalink) + (if Usable(e, permalink) then [e] else [])
  {
    FilterMapAppend(es, e, UsableStep(permalink));
  }

  /** One call per entry, in order. */
  function EntryCalls(es: seq<Entry>, permalink: string, context: string, purgeServer: string): seq<PurgeCall> {
    seq(|es|, i requires 0 <= i < |es| => EntryCall(es[i], permalink, context, purgeServer))
  }

  /** `get_permalink($post)` is falsy: false, the empty string or `0`. */
  predicate FalsyPermalink(permalink: Option<string>) {
    permalink.None? || IsEmptyString(permalink.value)
  }

  /** `purge_post_urls($post, $context)`, given the post's permalink (None for false). */
  function PurgePostUrls(permalink: Option<string>, context: string, s: Settings): (r: seq<PurgeCall>)
    ensures FalsyPermalink(permalink) ==> r == []
    ensures forall i :: 0 <= i < |r| ==> r[i].context == context
  {
    if FalsyPermalink(permalink) then []
    else EntryCalls(UsableEntries(PostEntries(s.hosts, s.purgeHomeOnPost), permalink.value), permalink.value, context, s.purgeServer)
  }

  /** At most one call per host, or two with home-page purging, and exactly that many when every entry is usable. */
  lemma PurgePostUrlsCount(permalink: string, context: string, s: Settings)
    ensures var n := |PurgePostUrls(Some(permalink), context, s)|;
      var width := if s.purgeHomeOnPost then 2 else 1;
      && n <= width * |s.hosts|
      && ((forall e :: e in PostEntries(s.hosts, s.purgeHomeOnPost) ==> Usable(e, permalink))
            && !FalsyPermalink(Some(permalink))
          ==> n == width * |s.hosts|)
  {
    var es := PostEntries(s.hosts, s.purgeHomeOnPost);
    if s.purgeHomeOnPost { PostEntriesWithHome(s.hosts); } else { PostEntriesWithoutHome(s.hosts); }
    if (forall e :: e in es ==> Usable(e, permalink)) {
      assert forall i :: 0 <= i < |es| ==> Usable(es[i], permalink) by {
        forall i | 0 <= i < |es| ensures Usable(es[i], permalink) { assert es[i] in es; }
      }
    }
  }

  /**
   * With home-page purging and every URL usable, host k gets two calls in host order:
   * call 2k purges the post's path and query on host k, call 2k + 1 host k's home page.
   */
  lemma PurgePostUrlsWithHome(permalink: string, context: string, s: Settings)
    requires !FalsyPermalink(Some(permalink)) && s.purgeHomeOnPost
    requires forall k :: 0 <= k < |s.hosts| ==>
      Usable(PostOn(s.hosts[k]), permalink) && Usable(HomeOf(s.hosts[k]), permalink)
    ensures var r := PurgePostUrls(Some(permalink), context, s);
      && |r| == 2 * |s.hosts|
      && (forall k :: 0 <= k < |s.hosts| ==>
            var pq := GetPathAndQuery(SwapHostInUrl(permalink, s.hosts[k]));
            r[2 * k] == PurgeCall(BuildPurgeRequestUrl(s.hosts[k], pq.0, pq.1, s.purgeServer),
                                  context, HostHeaderForEndpoint(s.hosts[k])))
      && (forall k :: 0 <= k < |s.hosts| ==>
            var pq := GetPathAndQuery(Trailingslashit(s.hosts[k]));
            r[2 * k + 1] == PurgeCall(BuildPurgeRequestUrl(s.hosts[k], pq.0, pq.1, s.purgeServer),
                                      context, HostHeaderForEndpoint(s.hosts[k])))
  {
    var es := PostEntries(s.hosts, true);
    PostEntriesWithHome(s.hosts);
    EntriesWithHomeUsable(s.hosts, permalink);
    PurgePostUrlsEntries(permalink, context, s);
    var r := PurgePostUrls(Some(permalink), context, s);
    forall k | 0 <= k < |s.hosts|
      ensures var pq := GetPathAndQuery(SwapHostInUrl(permalink, s.hosts[k]));
        r[2 * k] == PurgeCall(BuildPurgeRequestUrl(s.hosts[k], pq.0, pq.1, s.purgeServer),
                              context, HostHeaderForEndpoint(s.hosts[k]))
      ensures var pq := GetPathAndQuery(Trailingslashit(s.hosts[k]));
        r[2 * k + 1] == PurgeCall(BuildPurgeRequestUrl(s.hosts[k], pq.0, pq.1, s.purgeServer),
                                  context, HostHeaderForEndpoint(s.hosts[k]))
    {
      var post := EntryCall(PostOn(s.hosts[k]), permalink, context, s.purgeServer);
      var home := EntryCall(HomeOf(s.hosts[k]), permalink, context, s.purgeServer);
      assert r[2 * k] == post && r[2 * k + 1] == home;
    }
  }

  /** Without home-page purging and every URL usable, call k purges the post's path and query on host k. */
  lemma PurgePostUrlsWithoutHome(permalink: string, context: string, s: Settings)
    requires !FalsyPermalink(Some(permalink)) && !s.purgeHomeOnPost
    requires forall k :: 0 <= k < |s.hosts| ==> Usable(PostOn(s.hosts[k]), permalink)
    ensures var r := PurgePostUrls(Some(permalink), context, s);
      && |r| == |s.hosts|
      && (forall k :: 0 <= k < |s.hosts| ==>
            var pq := GetPathAndQuery(SwapHostInUrl(permalink, s.hosts[k]));
            r[k] == PurgeCall(BuildPurgeRequestUrl(s.hosts[k], pq.0, pq.1, s.purgeServer),
                              context, HostHeaderForEndpoint(s.hosts[k])))
  {
    var es := PostEntries(s.hosts, false);
    PostEntriesWithoutHome(s.hosts);
    PurgePostUrlsEntries(permalink, context, s);
    var r := PurgePostUrls(Some(permalink), context, s);
    forall k | 0 <= k < |s.hosts|
      ensures var pq := GetPathAndQuery(SwapHostInUrl(permalink, s.hosts[k]));
        r[k] == PurgeCall(BuildPurgeRequestUrl(s.hosts[k], pq.0, pq.1, s.purgeServer),
                          context, HostHeaderForEndpoint(s.hosts[k]))
    {
      var post := EntryCall(PostOn(s.hosts[k]), permalink, context, s.purgeServer);
      assert r[k] == post;
    }
  }

  lemma EntriesWithHomeUsable(hosts: seq<string>, permalink: string)
    requires forall k :: 0 <= k < |hosts| ==>
      Usable(PostOn(hosts[k]), permalink) && Usable(HomeOf(hosts[k]), permalink)
    ensures var es := PostEntries(hosts, true);
      forall i :: 0 <= i < |es| ==> Usable(es[i], permalink)
  {
    var es := PostEntries(hosts, true);
    forall i | 0 <= i < |es| ensures Usable(es[i], permalink) {
      EntryWithHomeAt(hosts, i);
    }
  }

  lemma EntryWithHomeAt(hosts: seq<string>, i: nat)
    requires i < |PostEntries(hosts, true)|
    ensures i / 2 < |hosts|
    ensures PostEntries(hosts, true)[i] == if i % 2 == 0 then PostOn(hosts[i / 2]) else HomeOf(hosts[i / 2])
  {
    PostEntriesWithHome(hosts);
    var k := i / 2;
    assert i == 2 * k || i == 2 * k + 1;
  }

  /** When every entry is usable, call i is the call for entry i. */
  lemma PurgePostUrlsEntries(permalink: string, context: string, s: Settings)
    requires !FalsyPermalink(Some(permalink))
    requires var es := PostEntries(s.hosts, s.purgeHomeOnPost);
      forall i :: 0 <= i < |es| ==> Usable(es[i], permalink)
    ensures var es := PostEntries(s.hosts, s.purgeHomeOnPost);
      var r := PurgePostUrls(Some(permalink), context, s);
      && |r| == |es|
      && forall i :: 0 <= i < |es| ==> r[i] == EntryCall(es[i], permalink, context, s.purgeServer)
  {
  }

  /** Every entry belongs to one of the configured hosts. */
  lemma EntryHostConfigured(hosts: seq<string>, purgeHome: bool, e: Entry)
    requires e in PostEntries(hosts, purgeHome)
    ensures e.host in hosts
  {
    FlattenMembers(hosts, EntryRow(purgeHome), e);
    var host :| host in hosts && e in EntryRow(purgeHome)(host);
    assert e in HostEntries(host, purgeHome);
  }

  /** Every call of a post purge goes to one of the configured hosts, with that host's Host header. */
  lemma PurgePostUrlsTargetsHosts(permalink: Option<string>, context: string, s: Settings, c: PurgeCall)
    requires c in PurgePostUrls(permalink, context, s)
    ensures exists host :: host in s.hosts && c.hostHeader == HostHeaderForEndpoint(host)
  {
    var es := PostEntries(s.hosts, s.purgeHomeOnPost);
    var us := UsableEntries(es, permalink.value);
    var calls := EntryCalls(us, permalink.value, context, s.purgeServer);
    var k :| 0 <= k < |calls| && calls[k] == c;
    var e := us[k];
    assert e in us;
    EntryHostConfigured(s.hosts, s.purgeHomeOnPost, e);
    EntryCallHeader(us, permalink.value, context, s.purgeServer, k);
    assert c.hostHeader == HostHeaderForEndpoint(e.host);
  }

  /** Call k of a list of entries carries the Host header of entry k's host. */
  lemma EntryCallHeader(es: seq<Entry>, permalink: string, context: string, purgeServer: string, k: nat)
    requires k < |es|
    ensures k < |EntryCalls(es, permalink, context, purgeServer)|
    ensures EntryCalls(es, permalink, context, purgeServer)[k].hostHeader == HostHeaderForEndpoint(es[k].host)
  {
  }

  /**
   * No deduplication: for a post whose permalink is a site's front page, the post URL
   * and the home page URL coincide on every host, and the same request is planned twice.
   */
  lemma FrontPagePurgedTwice(permalink: string, host: string, purgeServer: string, context: string)
    requires ParseUrl(permalink).Some? && ParseUrl(permalink).value.host.Some?
    requires ParseUrl(permalink).value.path == Some("/") && ParseUrl(permalink).value.query.None?
    requires IsOrigin(Untrailingslashit(host))
    ensures EntryCall(PostOn(host), permalink, context, purgeServer)
      == EntryCall(HomeOf(host), permalink, context, purgeServer)
  {
    var base := Untrailingslashit(host);
    SwapKeepsPathAndQuery(permalink, host);
    ParseOriginPathQuery(base, "/", None);
    assert Trailingslashit(host) == base + "/" + "";
    assert GetPathAndQuery(permalink) == ("/", "");
  }

  // ---------------------------------------------------------------------------
  // handle_post_transition

  /** The post a status transition is about (None when the object is not a WP_Post). */
  datatype Post = Post(postType: string, permalink: Option<string>)

  /** The purge context a transition calls for, if any. */
  function TransitionContext(newStatus: string, oldStatus: string, post: Option<Post>, s: Settings)
    : (r: Option<string>)
    ensures r == Some(PublishContext) <==>
      post.Some? && post.value.postType != "revision"
      && newStatus == "publish" && oldStatus != "publish" && s.purgeOnPublish
    ensures r == Some(UpdateContext) <==>
      post.Some? && post.value.postType != "revision"
      && newStatus == "publish" && oldStatus == "publish" && s.purgeOnUpdate
    ensures r.None? || r == Some(PublishContext) || r == Some(UpdateContext)
  {
    if post.None? || post.value.postType == "revision" then None
    else if newStatus == "publish" && oldStatus != "publish" && s.purgeOnPublish then Some(PublishContext)
    else if newStatus == "publish" && oldStatus == "publish" && s.purgeOnUpdate then Some(UpdateContext)
    else None
  }

  /** `handle_post_transition($new_status, $old_status, $post)`: at most one post purge. */
  function HandlePostTransition(newStatus: string, oldStatus: string, post: Option<Post>, s: Settings)
    : (r: seq<PurgeCall>)
    ensures r != [] ==>
      && newStatus == "publish" && post.Some? && post.value.postType != "revision"
      && (if oldStatus == "publish" then s.purgeOnUpdate else s.purgeOnPublish)
    ensures forall i :: 0 <= i < |r| ==>
      r[i].context == (if oldStatus == "publish" then UpdateContext else PublishContext)
    ensures TransitionContext(newStatus, oldStatus, post, s).None? ==> r == []
    ensures TransitionContext(newStatus, oldStatus, post, s).Some? ==>
      r == PurgePostUrls(post.value.permalink, TransitionContext(newStatus, oldStatus, post, s).value, s)
  {
    match TransitionContext(newStatus, oldStatus, post, s)
    case None => []
    case Some(context) => PurgePostUrls(post.value.permalink, context, s)
  }

  /** A transition away from `publish`, or to any other status, purges nothing. */
  lemma NonPublishTransitionPurgesNothing(newStatus: string, oldStatus: string, post: Option<Post>, s: Settings)
    requires newStatus != "publish"
    ensures HandlePostTransition(newStatus, oldStatus, post, s) == []
  {
  }
}

=== FILE: scheduler.dfy ===
/**
 * The plugin's WP-Cron timer: one recurring event on the hook `wp_vcp_scheduled_purge`,
 * (re)scheduled on activation, on page loads that find it missing, and whenever the
 * settings option is added or updated. The cron table is modelled as the list of
 * events registered for this hook; WordPress itself keeps it sorted by timestamp.
 */
module Scheduler {
  import opened Wrappers
  import opened PhpStrings
  import opened Settings
  import opened Clock

  const CronHook: string := "wp_vcp_scheduled_purge"
  const OptionName: string := "wp_vcp_settings"
  const FiveMinutes: string := "five_minutes"
  const FifteenMinutes: string := "fifteen_minutes"
  const MinuteInSeconds: int := 60

  /** One registered event of the hook: when it first runs and the schedule it recurs on. */
  datatype Event = Event(timestamp: int, recurrence: string)

  /** The events registered for the hook. */
  type Cron = seq<Event>

  /** `register_custom_schedules($schedules)`: schedule name to interval in seconds. */
  function RegisterCustomSchedules(schedules: Schedules): (r: Schedules)
    ensures r.Keys == schedules.Keys + {FiveMinutes, FifteenMinutes}
    ensures r[FiveMinutes] == 5 * MinuteInSeconds && r[FifteenMinutes] == 15 * MinuteInSeconds
    ensures forall name :: name in schedules && name != FiveMinutes && name != FifteenMinutes ==>
      r[name] == schedules[name]
  {
    schedules[FiveMinutes := 5 * MinuteInSeconds][FifteenMinutes := 15 * MinuteInSeconds]
  }

  // ---------------------------------------------------------------------------
  // WordPress cron primitives

  /** `wp_clear_scheduled_hook`: every event of the hook is removed. */
  function ClearScheduledHook(cron: Cron): (r: Cron)
    ensures |r| == 0
  {
    []
  }

  /** `wp_schedule_event`: refused when the recurrence is not a registered schedule. */
  function ScheduleRecurring(cron: Cron, timestamp: int, recurrence: string, schedules: Schedules): (r: Cron)
    ensures recurrence in schedules ==> |r| == |cron| + 1 && r[|cron|] == Event(timestamp, recurrence)
    ensures recurrence !in schedules ==> r == cron
    ensures r[..|cron|] == cron
  {
    if recurrence in schedules then cron + [Event(timestamp, recurrence)] else cron
  }

  /** The earliest timestamp among the events. */
  function EarliestTimestamp(cron: Cron): (t: int)
    requires |cron| > 0
    ensures exists i :: 0 <= i < |cron| && cron[i].timestamp == t
    ensures forall i :: 0 <= i < |cron| ==> t <= cron[i].timestamp
  {
    if |cron| == 1 then cron[0].timestamp
    else
      var rest := EarliestTimestamp(cron[1..]);
      assert forall i :: 1 <= i < |cron| ==> cron[i] == cron[1..][i - 1];
      if cron[0].timestamp <= rest then cron[0].timestamp else rest
  }

  /** `wp_next_scheduled`: the next run of the hook, if any. */
  function NextScheduled(cron: Cron): (r: Option<int>)
    ensures r.None? <==> |cron| == 0
  {
    if |cron| == 0 then None else Some(EarliestTimestamp(cron))
  }

  // ---------------------------------------------------------------------------
  // schedule_event

  /** The schedule asked for: a truthy custom interval, else the one in the settings. */
  function RequestedInterval(customInterval: Option<string>, s: Settings): string {
    if customInterval.Some? && !IsEmptyString(customInterval.value) then customInterval.value
    else s.scheduleInterval
  }

  /** The schedule used: the requested one when registered, else the default `hourly`. */
  function ChooseInterval(customInterval: Option<string>, s: Settings, schedules: Schedules): (r: string)
    ensures RequestedInterval(customInterval, s) in schedules ==> r == RequestedInterval(customInterval, s)
    ensures RequestedInterval(customInterval, s) !in schedules ==> r == DefaultInterval
    ensures r in schedules || r == DefaultInterval
  {
    var interval := RequestedInterval(customInterval, s);
    if interval in schedules then interval else DefaultInterval
  }

  /** The first run: the next daily or weekly slot, otherwise one minute from now. */
  function FirstRunTimestamp(interval: string, s: Settings, now: int, offset: int): int {
    if interval == "daily" then DailyRunTimestamp(s.dailyTime, now, offset)
    else if interval == "weekly" then WeeklyRunTimestamp(s.weeklyDay, s.weeklyTime, now, offset)
    else now + MinuteInSeconds
  }

  /** With a weekday in range, the first run lies in the future, at most a week ahead. */
  lemma FirstRunBounds(interval: string, s: Settings, now: int, offset: int)
    requires 0 <= s.weeklyDay <= 6
    ensures now < FirstRunTimestamp(interval, s, now, offset) <= now + 7 * Day
    ensures interval == "daily" ==>
      && FirstRunTimestamp(interval, s, now, offset) <= now + Day
      && SecondsIntoDay(FirstRunTimestamp(interval, s, now, offset), offset) == TimeOfDay(s.dailyTime)
    ensures interval == "weekly" ==>
      && Weekday(FirstRunTimestamp(interval, s, now, offset), offset) == s.weeklyDay
      && SecondsIntoDay(FirstRunTimestamp(interval, s, now, offset), offset) == TimeOfDay(s.weeklyTime)
    ensures interval != "daily" && interval != "weekly" ==>
      FirstRunTimestamp(interval, s, now, offset) == now + MinuteInSeconds
  {
    DailyRunBounds(s.dailyTime, now, offset);
    WeeklyRunBounds(s.weeklyDay, s.weeklyTime, now, offset);
  }

  /**
   * `schedule_event($custom_interval, $settings_override)` at the instant `now`: the
   * override (a complete settings array) or else the stored settings decide the schedule
   * and the first run; the hook is cleared and the event registered afresh.
   */
  function ScheduleEvent(cron: Cron, customInterval: Option<string>, override: Option<Settings>,
                         stored: Settings, schedules: Schedules, now: int, offset: int): (r: Cron)
    ensures |r| <= 1
    ensures var s := override.GetOr(stored);
      var interval := ChooseInterval(customInterval, s, schedules);
      && (|r| == 1 <==> interval in schedules)
      && (|r| == 1 ==> r[0] == Event(FirstRunTimestamp(interval, s, now, offset), interval))
  {
    var s := if override.Some? then override.value else stored;
    var interval := ChooseInterval(customInterval, s, schedules);
    var timestamp := FirstRunTimestamp(interval, s, now, offset);
    ScheduleRecurring(ClearScheduledHook(cron), timestamp, interval, schedules)
  }

  /** The last reschedule wins: what was scheduled before plays no part. */
  lemma ScheduleEventForgetsHistory(c1: Cron, c2: Cron, customInterval: Option<string>, override: Option<Settings>,
                                    stored: Settings, schedules: Schedules, now: int, offset: int)
    ensures ScheduleEvent(c1, customInterval, override, stored, schedules, now, offset)
         == ScheduleEvent(c2, customInterval, override, stored, schedules, now, offset)
  {
  }

  /** With `hourly` registered, scheduling always leaves exactly one event on a registered schedule. */
  lemma ScheduleEventRegisters(cron: Cron, customInterval: Option<string>, override: Option<Settings>,
                               stored: Settings, schedules: Schedules, now: int, offset: int)
    requires DefaultInterval in schedules
    ensures var r := ScheduleEvent(cron, customInterval, override, stored, schedules, now, offset);
      |r| == 1 && r[0].recurrence in schedules
  {
  }

  /** An unregistered interval, asked for or stored, falls back to `hourly` one minute from now. */
  lemma UnknownIntervalFallsBack(cron: Cron, customInterval: Option<string>, override: Option<Settings>,
                                 stored: Settings, schedules: Schedules, now: int, offset: int)
    requires RequestedInterval(customInterval, override.GetOr(stored)) !in schedules
    requires DefaultInterval in schedules
    ensures ScheduleEvent(cron, customInterval, override, stored, schedules, now, offset)
         == [Event(now + MinuteInSeconds, DefaultInterval)]
  {
  }

  // ---------------------------------------------------------------------------
  // lifecycle hooks

  /** The schedule a settings snapshot runs on: its own when registered, else `hourly`. */
  function SettingsSchedule(s: Settings, schedules: Schedules): string {
    if s.scheduleInterval in schedules then s.scheduleInterval else DefaultInterval
  }

  /**
   * The timer `s` asks for: exactly one event on the settings' schedule, first running
   * at the next slot of that schedule; no event when even `hourly` is unregistered.
   */
  predicate FreshTimer(r: Cron, s: Settings, schedules: Schedules, now: int, offset: int) {
    var interval := SettingsSchedule(s, schedules);
    if interval in schedules then r == [Event(FirstRunTimestamp(interval, s, now, offset), interval)]
    else r == []
  }

  /** `activate()`: schedule from the stored settings. */
  function Activate(cron: Cron, stored: Settings, schedules: Schedules, now: int, offset: int): (r: Cron)
    ensures FreshTimer(r, stored, schedules, now, offset)
  {
    ScheduleEvent(cron, None, None, stored, schedules, now, offset)
  }

  /** `deactivate()`: the hook is cleared. */
  function Deactivate(cron: Cron): (r: Cron)
    ensures NextScheduled(r).None?
  {
    ClearScheduledHook(cron)
  }

  /** `wp_next_scheduled` reports nothing truthy: no event, or one at timestamp 0. */
  predicate NothingScheduled(cron: Cron) {
    NextScheduled(cron).None? || NextScheduled(cron).value == 0
  }

  /** `ensure_event_scheduled()`: reschedule only when nothing is scheduled. */
  function EnsureEventScheduled(cron: Cron, stored: Settings, schedules: Schedules, now: int, offset: int): (r: Cron)
    ensures !NothingScheduled(cron) ==> r == cron
    ensures NothingScheduled(cron) ==> FreshTimer(r, stored, schedules, now, offset)
  {
    if NothingScheduled(cron) then ScheduleEvent(cron, None, None, stored, schedules, now, offset) else cron
  }

  /** On a site where `hourly` is registered and clocks run past 0, an ensured timer exists and a second ensure changes nothing. */
  lemma EnsureEventScheduledIdempotent(cron: Cron, stored: Settings, schedules: Schedules,
                                       now: int, offset: int, later: int)
    requires DefaultInterval in schedules && now >= 0 && 0 <= stored.weeklyDay <= 6
    ensures var r := EnsureEventScheduled(cron, stored, schedules, now, offset);
      && !NothingScheduled(r)
      && EnsureEventScheduled(r, stored, schedules, later, offset) == r
  {
    var r := EnsureEventScheduled(cron, stored, schedules, now, offset);
    if NothingScheduled(cron) {
      var interval := ChooseInterval(None, stored, schedules);
      FirstRunBounds(interval, stored, now, offset);
      assert r == [Event(FirstRunTimestamp(interval, stored, now, offset), interval)];
      assert NextScheduled(r) == Some(FirstRunTimestamp(interval, stored, now, offset));
    }
  }

  /** `maybe_reschedule_on_add($option, $value)`; `value` is None when it is not an array. */
  function MaybeRescheduleOnAdd(cron: Cron, option: string, value: Option<Settings>, stored: Settings,
                                schedules: Schedules, now: int, offset: int): (r: Cron)
    ensures option != OptionName || value.None? ==> r == cron
    ensures option == OptionName && value.Some? ==> FreshTimer(r, value.value, schedules, now, offset)
  {
    if option != OptionName || value.None? then cron
    else ScheduleEvent(cron, Some(value.value.scheduleInterval), value, stored, schedules, now, offset)
  }

  /** `maybe_reschedule_on_update($old_value, $value)`; `value` is None when it is not an array. */
  function MaybeRescheduleOnUpdate(cron: Cron, value: Option<Settings>, stored: Settings,
                                   schedules: Schedules, now: int, offset: int): (r: Cron)
    ensures value.None? ==> r == cron
    ensures value.Some? ==> FreshTimer(r, value.value, schedules, now, offset)
  {
    if value.None? then cron
    else ScheduleEvent(cron, Some(value.value.scheduleInterval), value, stored, schedules, now, offset)
  }

  /** Saving settings reschedules from the saved values, whatever was stored or scheduled before. */
  lemma UpdateUsesNewSettings(c1: Cron, c2: Cron, value: Settings, stored1: Settings, stored2: Settings,
                              schedules: Schedules, now: int, offset: int)
    ensures MaybeRescheduleOnUpdate(c1, Some(value), stored1, schedules, now, offset)
         == MaybeRescheduleOnUpdate(c2, Some(value), stored2, schedules, now, offset)
  {
  }

  // ---------------------------------------------------------------------------
  // sequences of hook invocations

  /** One invocation of a hook the plugin listens on, at the instant `now`. */
  datatype Hook =
    | Activation(now: int)
    | Deactivation
    | Init(now: int)
    | OptionAdded(option: string, value: Option<Settings>, now: int)
    | OptionUpdated(value: Option<Settings>, now: int)

  /** The state the hooks act on: the cron events and the settings `get_settings()` returns. */
  datatype Site = Site(cron: Cron, stored: Settings)

  /**
   * One hook invocation. Writing the option (add or update) stores the new value
   * before the hook runs; a value that is not an array reads back as the defaults.
   */
  function Step(site: Site, hook: Hook, defaults: Settings, schedules: Schedules, offset: int): Site {
    match hook
    case Activation(now) => site.(cron := Activate(site.cron, site.stored, schedules, now, offset))
    case Deactivation => site.(cron := Deactivate(site.cron))
    case Init(now) => site.(cron := EnsureEventScheduled(site.cron, site.stored, schedules, now, offset))
    case OptionAdded(option, value, now) =>
      var stored := if option == OptionName then value.GetOr(defaults) else site.stored;
      Site(MaybeRescheduleOnAdd(site.cron, option, value, stored, schedules, now, offset), stored)
    case OptionUpdated(value, now) =>
      var stored := value.GetOr(defaults);
      Site(MaybeRescheduleOnUpdate(site.cron, value, stored, schedules, now, offset), stored)
  }

  /** A sequence of hook invocations, first to last. */
  function Run(site: Site, hooks: seq<Hook>, defaults: Settings, schedules: Schedules, offset: int): Site
    decreases |hooks|
  {
    if |hooks| == 0 then site
    else Run(Step(site, hooks[0], defaults, schedules, offset), hooks[1..], defaults, schedules, offset)
  }

  /** Starting from at most one event, every sequence of hooks leaves at most one event. */
  lemma {:induction false} RunKeepsSingleTimer(site: Site, hooks: seq<Hook>, defaults: Settings,
                                                schedules: Schedules, offset: int)
    requires |site.cron| <= 1
    ensures |Run(site, hooks, defaults, schedules, offset).cron| <= 1
    decreases |hooks|
  {
    if |hooks| > 0 {
      RunKeepsSingleTimer(Step(site, hooks[0], defaults, schedules, offset), hooks[1..], defaults, schedules, offset);
    }
  }

  /** After a deactivation, and until the next hook, nothing is scheduled. */
  lemma DeactivationClears(site: Site, hooks: seq<Hook>, defaults: Settings, schedules: Schedules, offset: int)
    requires |hooks| > 0 && hooks[|hooks| - 1] == Deactivation
    ensures Run(site, hooks, defaults, schedules, offset).cron == []
  {
    RunSnoc(site, hooks[..|hooks| - 1], Deactivation, defaults, schedules, offset);
    assert hooks == hooks[..|hooks| - 1] + [Deactivation];
  }

  /** Running hooks and then one more is one more step after the run. */
  lemma {:induction false} RunSnoc(site: Site, hooks: seq<Hook>, last: Hook, defaults: Settings,
                                   schedules: Schedules, offset: int)
    ensures Run(site, hooks + [last], defaults, schedules, offset)
         == Step(Run(site, hooks, defaults, schedules, offset), last, defaults, schedules, offset)
    decreases |hooks|
  {
    if |hooks| == 0 {
      assert hooks + [last] == [last];
    } else {
      assert (hooks + [last])[1..] == hooks[1..] + [last];
      RunSnoc(Step(site, hooks[0], defaults, schedules, offset), hooks[1..], last, defaults, schedules, offset);
    }
  }

  /** A settings update that reschedules decides the timer alone: the hooks before it play no part. */
  lemma LastUpdateWins(s1: Site, s2: Site, h1: seq<Hook>, h2: seq<Hook>, value: Settings, now: int,
                       defaults: Settings, schedules: Schedules, offset: int)
    ensures Run(s1, h1 + [OptionUpdated(Some(value), now)], defaults, schedules, offset)
         == Run(s2, h2 + [OptionUpdated(Some(value), now)], defaults, schedules, offset)
  {
    RunSnoc(s1, h1, OptionUpdated(Some(value), now), defaults, schedules, offset);
    RunSnoc(s2, h2, OptionUpdated(Some(value), now), defaults, schedules, offset);
  }
}

=== FILE: settings.dfy ===
/**
 * The settings of the purger and their sanitisation (`sanitize_settings` and the
 * per-field `sanitize_*` normalisers of wp-varnish-cache-purger.php), plus
 * `parse_time_to_parts`, which reads a stored HH:MM back into numbers.
 *
 * Raw input is what a settings form or a stored option array can hold: strings,
 * integers, lists of strings, booleans and null. Two WordPress helpers whose
 * behaviour is not part of this model are parameters: `esc_url_raw` and
 * `sanitize_text_field` (see Env). `sanitize_key` is modelled as WordPress
 * defines it: lower-case, then keep only `a-z`, `0-9`, `_` and `-`.
 */
module Settings {
  import opened Wrappers
  import opened PhpStrings
  import opened Dedup
  import opened Sift

  /** The registered cron schedules (`wp_get_schedules()`): name to interval in seconds. */
  type Schedules = map<string, int>

  /** One raw value of a PHP settings array. */
  datatype RawValue = Text(s: string) | Integer(n: int) | List(items: seq<string>) | Flag(b: bool) | Null

  /** The raw settings: a PHP array of named fields, or a value that is not an array. */
  datatype RawInput = NotArray | Fields(fields: map<string, RawValue>)

  /**
   * What sanitisation needs from WordPress: the site's home URL (the default host),
   * the registered cron schedules with their intervals (`wp_get_schedules()`), and the
   * two helpers left uninterpreted.
   */
  datatype Env = Env(
    homeUrl: string,
    schedules: Schedules,
    escUrlRaw: string -> string,
    sanitizeTextField: string -> string)

  /** The sanitised settings snapshot every other part of the purger reads. */
  datatype Settings = Settings(
    hosts: seq<string>,
    purgeServer: string,
    scheduleInterval: string,
    scheduledPaths: seq<string>,
    dailyTime: string,
    weeklyDay: int,
    weeklyTime: string,
    purgeOnPublish: bool,
    purgeOnUpdate: bool,
    purgeHomeOnPost: bool,
    headerName: string,
    headerValue: string,
    verboseLogging: bool)

  const DefaultInterval: string := "hourly"
  const DefaultPaths: seq<string> := ["/"]
  const DefaultDailyTime: string := "02:00"
  const DefaultWeeklyDay: int := 1
  const DefaultWeeklyTime: string := "03:00"

  /** The default host list: the home URL without trailing slashes. */
  function DefaultHosts(homeUrl: string): seq<string> {
    [Untrailingslashit(homeUrl)]
  }

  /** `get_default_settings()`. */
  function Defaults(homeUrl: string): Settings {
    Settings(
      hosts := DefaultHosts(homeUrl),
      purgeServer := "",
      scheduleInterval := DefaultInterval,
      scheduledPaths := DefaultPaths,
      dailyTime := DefaultDailyTime,
      weeklyDay := DefaultWeeklyDay,
      weeklyTime := DefaultWeeklyTime,
      purgeOnPublish := true,
      purgeOnUpdate := true,
      purgeHomeOnPost := true,
      headerName := "",
      headerValue := "",
      verboseLogging := false)
  }

  // ---------------------------------------------------------------------------
  // PHP's view of raw values

  /** PHP's empty(). */
  predicate IsEmptyValue(v: RawValue) {
    match v
    case Text(s) => IsEmptyString(s)
    case Integer(n) => n == 0
    case List(items) => |items| == 0
    case Flag(b) => !b
    case Null => true
  }

  /** `!empty($raw[$key])`. */
  predicate Filled(fields: map<string, RawValue>, key: string) {
    key in fields && !IsEmptyValue(fields[key])
  }

  /** `isset($raw[$key])`. */
  predicate IsSet(fields: map<string, RawValue>, key: string) {
    key in fields && !fields[key].Null?
  }

  /** `$raw[$key] ?? $default`. */
  function FieldOr(fields: map<string, RawValue>, key: string, default: RawValue): (v: RawValue)
    ensures IsSet(fields, key) ==> v == fields[key]
    ensures !IsSet(fields, key) ==> v == default
  {
    if IsSet(fields, key) then fields[key] else default
  }

  /** The string a scalar converts to with `(string)`; None for arrays and null. */
  function ScalarString(v: RawValue): Option<string> {
    match v
    case Text(s) => Some(s)
    case Integer(n) => Some(IntToString(n))
    case Flag(b) => Some(if b then "1" else "")
    case List(_) => None
    case Null => None
  }

  /** The lines of a multi-line field: `explode("\n", $v)` for a string, `(array) $v` otherwise. */
  function ToLines(v: RawValue): seq<string> {
    match v
    case Text(s) => Explode(s, '\n')
    case Integer(n) => [IntToString(n)]
    case List(items) => items
    case Flag(b) => [if b then "1" else ""]
    case Null => []
  }

  // ---------------------------------------------------------------------------
  // sanitize_key

  predicate IsKeyChar(c: char) {
    ('a' <= c <= 'z') || IsDigit(c) || c == '_' || c == '-'
  }

  /** strtolower, then drop every character outside `[a-z0-9_-]`. */
  function KeyFilter(s: string): (r: string)
    ensures forall i :: 0 <= i < |r| ==> IsKeyChar(r[i])
    ensures (forall i :: 0 <= i < |s| ==> IsKeyChar(s[i])) ==> r == s
    ensures |r| <= |s|
  {
    if |s| == 0 then ""
    else
      var c := ToLowerAscii(s[0]);
      (if IsKeyChar(c) then [c] else []) + KeyFilter(s[1..])
  }

  /** `sanitize_key($v)`: empty for a non-scalar. */
  function SanitizeKey(v: RawValue): (r: string)
    ensures forall i :: 0 <= i < |r| ==> IsKeyChar(r[i])
    ensures v.Text? && (forall i :: 0 <= i < |v.s| ==> IsKeyChar(v.s[i])) ==> r == v.s
  {
    match ScalarString(v)
    case Some(s) => KeyFilter(s)
    case None => ""
  }

  // ---------------------------------------------------------------------------
  // HH:MM times

  predicate IsHourPair(a: char, b: char) {
    ((a == '0' || a == '1') && IsDigit(b)) || (a == '2' && '0' <= b <= '3')
  }

  predicate IsMinutePair(a: char, b: char) {
    '0' <= a <= '5' && IsDigit(b)
  }

  /** The clock time of the pattern `([01]?\d|2[0-3]):([0-5]\d)` matching all of s. */
  function MatchClock(s: string): (r: Option<(nat, nat)>)
    ensures r.Some? ==> r.value.0 <= 23 && r.value.1 <= 59
  {
    if |s| == 4 && IsDigit(s[0]) && s[1] == ':' && IsMinutePair(s[2], s[3]) then
      Some((DigitValue(s[0]), DigitValue(s[2]) * 10 + DigitValue(s[3])))
    else if |s| == 5 && IsHourPair(s[0], s[1]) && s[2] == ':' && IsMinutePair(s[3], s[4]) then
      Some((DigitValue(s[0]) * 10 + DigitValue(s[1]), DigitValue(s[3]) * 10 + DigitValue(s[4])))
    else
      None
  }

  /**
   * `preg_match('/^([01]?\d|2[0-3]):([0-5]\d)$/', $s)`: without the D modifier, `$`
   * also matches just before a final newline, so one trailing "\n" is tolerated.
   */
  function MatchTimePattern(s: string): (r: Option<(nat, nat)>)
    ensures r.Some? ==> r.value.0 <= 23 && r.value.1 <= 59
  {
    if MatchClock(s).Some? then MatchClock(s)
    else if |s| > 0 && s[|s| - 1] == '\n' then MatchClock(s[..|s| - 1])
    else None
  }

  /** A zero-padded `HH:MM` naming a real clock time. */
  predicate IsCanonicalTime(s: string) {
    |s| == 5 && IsHourPair(s[0], s[1]) && s[2] == ':' && IsMinutePair(s[3], s[4])
  }

  /** `sprintf('%02d:%02d', $h, $m)`. */
  function FormatTime(h: nat, m: nat): (r: string)
    requires h <= 23 && m <= 59
    ensures IsCanonicalTime(r)
    ensures MatchTimePattern(r) == Some((h, m))
  {
    var r := Pad2(h) + ":" + Pad2(m);
    assert r[..2] == Pad2(h) && r[3..] == Pad2(m);
    assert DigitsValue(r[..2]) == DigitValue(r[0]) * 10 + DigitValue(r[1]) by {
      assert r[..2][..1] == [r[0]] && [r[0]][..0] == [];
    }
    assert DigitsValue(r[3..]) == DigitValue(r[3]) * 10 + DigitValue(r[4]) by {
      assert r[3..][..1] == [r[3]] && [r[3]][..0] == [];
    }
    r
  }

  /** A canonical time is the formatting of the clock time it denotes. */
  lemma CanonicalTimeRoundTrip(s: string)
    requires IsCanonicalTime(s)
    ensures MatchTimePattern(s).Some?
    ensures FormatTime(MatchTimePattern(s).value.0, MatchTimePattern(s).value.1) == s
  {
    var (h, m) := MatchTimePattern(s).value;
    var f := FormatTime(h, m);
    assert f[0] == s[0] && f[1] == s[1] && f[3] == s[3] && f[4] == s[4];
  }

  /** The single-digit-hour form `H:MM` the pattern also accepts. */
  function ShortTime(h: nat, m: nat): string
    requires h <= 9 && m <= 59
  {
    [DigitChar(h)] + ":" + Pad2(m)
  }

  /** The pattern accepts a one-digit hour and reads it as that hour. */
  lemma MatchShortTime(h: nat, m: nat)
    requires h <= 9 && m <= 59
    ensures MatchClock(ShortTime(h, m)) == Some((h, m))
    ensures MatchTimePattern(ShortTime(h, m)) == Some((h, m))
  {
    var t := ShortTime(h, m);
    assert t[2..] == Pad2(m);
    assert DigitsValue(t[2..]) == DigitValue(t[2]) * 10 + DigitValue(t[3]) by {
      assert t[2..][..1] == [t[2]] && [t[2]][..0] == [];
    }
  }

  /** What the pattern accepts is exactly the zero-padded `HH:MM` or the one-digit-hour `H:MM` of its value. */
  lemma MatchClockShapes(s: string)
    requires MatchClock(s).Some?
    ensures var (h, m) := MatchClock(s).value;
      || (|s| == 5 && s == FormatTime(h, m))
      || (|s| == 4 && h <= 9 && s == ShortTime(h, m))
  {
    var (h, m) := MatchClock(s).value;
    if |s| == 5 {
      CanonicalTimeRoundTrip(s);
    } else {
      MatchShortTime(h, m);
      var t := ShortTime(h, m);
      assert t[0] == s[0] && t[2] == s[2] && t[3] == s[3];
    }
  }

  /** `sanitize_time_field($time, $fallback)`. */
  function SanitizeTimeField(time: RawValue, fallback: string): (r: string)
    ensures r == fallback || IsCanonicalTime(r)
    ensures !time.Text? || MatchTimePattern(Trim(time.s)).None? ==> r == fallback
    ensures time.Text? && MatchTimePattern(Trim(time.s)).Some? ==>
      IsCanonicalTime(r) && MatchTimePattern(r) == MatchTimePattern(Trim(time.s))
  {
    match time
    case Text(s) =>
      (match MatchTimePattern(Trim(s))
       case Some((h, m)) => FormatTime(h, m)
       case None => fallback)
    case _ => fallback
  }

  /** A canonical time passes sanitisation unchanged, whatever the fallback. */
  lemma SanitizeCanonicalTime(t: string, fallback: string)
    requires IsCanonicalTime(t)
    ensures SanitizeTimeField(Text(t), fallback) == t
  {
    assert t[0] !in TrimSpace && t[4] !in TrimSpace;
    TrimNoop(t);
    CanonicalTimeRoundTrip(t);
  }

  /** A one-digit hour is zero-padded: `H:MM` is stored as `0H:MM`. */
  lemma SanitizeShortTime(h: nat, m: nat, fallback: string)
    requires h <= 9 && m <= 59
    ensures SanitizeTimeField(Text(ShortTime(h, m)), fallback) == FormatTime(h, m)
  {
    var t := ShortTime(h, m);
    assert t[0] !in TrimSpace && t[3] !in TrimSpace;
    TrimNoop(t);
    MatchShortTime(h, m);
  }

  /** Sanitising a sanitised time again changes nothing, given a canonical fallback. */
  lemma SanitizeTimeFieldIdempotent(time: RawValue, fallback: string)
    requires IsCanonicalTime(fallback)
    ensures SanitizeTimeField(Text(SanitizeTimeField(time, fallback)), fallback)
         == SanitizeTimeField(time, fallback)
  {
    SanitizeCanonicalTime(SanitizeTimeField(time, fallback), fallback);
  }

  /** `parse_time_to_parts($time)`: the clock time of a matching string, else that of "00:00". */
  function ParseTimeToParts(time: string): (r: (nat, nat))
    ensures r.0 <= 23 && r.1 <= 59
    ensures MatchTimePattern(time).Some? ==> r == MatchTimePattern(time).value
    ensures MatchTimePattern(time).None? ==> r == (0, 0)
  {
    match MatchTimePattern(time)
    case Some(p) => p
    case None =>
      match MatchTimePattern("00:00")
      case Some(p) => p
      case None => (0, 0)
  }

  /** Reading back a formatted time gives the hour and minute that were formatted. */
  lemma ParseFormattedTime(h: nat, m: nat)
    requires h <= 23 && m <= 59
    ensures ParseTimeToParts(FormatTime(h, m)) == (h, m)
  {
  }

  // ---------------------------------------------------------------------------
  // weekday

  /** The whitespace PHP allows around a numeric string. */
  const NumericSpace: set<char> := {' ', '\t', '\n', '\r', '\U{000B}', '\U{000C}'}

  /** The longest prefix of s made of decimal digits. */
  function DigitPrefix(s: string): (r: string)
    ensures |r| <= |s| && r == s[..|r|] && AllDigits(r)
    ensures |r| < |s| ==> !IsDigit(s[|r|])
  {
    if |s| > 0 && IsDigit(s[0]) then [s[0]] + DigitPrefix(s[1..]) else ""
  }

  /** The text is_numeric inspects: s without the whitespace allowed around it. */
  function NumericCore(s: string): string {
    RTrim(LTrim(s, NumericSpace), NumericSpace)
  }

  /** An unsigned numeric string: digits with an optional fractional part, and the whole part's value. */
  function UnsignedValue(u: string): Option<nat> {
    var whole := DigitPrefix(u);
    var rest := u[|whole|..];
    if (rest == "" && |whole| > 0)
       || (|rest| > 0 && rest[0] == '.' && AllDigits(rest[1..]) && (|whole| > 0 || |rest| > 1))
    then Some(DigitsValue(whole))
    else None
  }

  /**
   * `is_numeric($s)` together with `(int) $s` for a string: surrounding whitespace, an
   * optional sign, then digits with an optional fractional part, truncated toward zero.
   */
  function NumericStringValue(s: string): Option<int> {
    var core := NumericCore(s);
    var signed := |core| > 0 && (core[0] == '-' || core[0] == '+');
    match UnsignedValue(if signed then core[1..] else core)
    case Some(m) => Some(if signed && core[0] == '-' then -(m as int) else m)
    case None => None
  }

  /** The integer an is_numeric value casts to; None when is_numeric is false. */
  function NumericValue(v: RawValue): Option<int> {
    match v
    case Integer(n) => Some(n)
    case Text(s) => NumericStringValue(s)
    case _ => None
  }

  /** Digit strings (as `(string) $int` renders them) read back as the number they render. */
  lemma NumericStringOfIntToString(n: int)
    ensures NumericStringValue(IntToString(n)) == Some(n)
  {
    IntToStringMagnitude(n);
    if n < 0 {
      NumericStringOfNegativeDigits(IntToString(n));
    } else {
      NumericStringOfDigits(IntToString(n));
    }
  }

  /** A run of digits is numeric, with the value it spells. */
  lemma NumericStringOfDigits(digits: string)
    requires |digits| > 0 && AllDigits(digits)
    ensures NumericStringValue(digits) == Some(DigitsValue(digits) as int)
  {
    NumericCoreNoop(digits);
    UnsignedValueOfDigits(digits);
  }

  /** A minus sign followed by digits is numeric, with the negated value of the digits. */
  lemma NumericStringOfNegativeDigits(s: string)
    requires |s| > 1 && s[0] == '-' && AllDigits(s[1..])
    ensures NumericStringValue(s) == Some(-(DigitsValue(s[1..]) as int))
  {
    assert IsDigit(s[1..][|s| - 2]);
    NumericCoreNoop(s);
    UnsignedValueOfDigits(s[1..]);
  }

  /** A string starting and ending with a sign or digit is its own core. */
  lemma NumericCoreNoop(s: string)
    requires |s| > 0 && (s[0] == '-' || IsDigit(s[0])) && IsDigit(s[|s| - 1])
    ensures NumericCore(s) == s
  {
    LTrimNoop(s, NumericSpace);
    RTrimNoop(s, NumericSpace);
  }

  /** A non-empty run of digits is an unsigned numeric string with the value it spells. */
  lemma UnsignedValueOfDigits(digits: string)
    requires |digits| > 0 && AllDigits(digits)
    ensures UnsignedValue(digits) == Some(DigitsValue(digits))
  {
    DigitPrefixAll(digits);
    assert digits[|digits|..] == "";
  }

  lemma {:induction false} DigitPrefixAll(s: string)
    requires AllDigits(s)
    ensures DigitPrefix(s) == s
  {
    if |s| > 0 {
      DigitPrefixAll(s[1..]);
      assert [s[0]] + s[1..] == s;
    }
  }

  /** `sanitize_weekday($day)`: a numeric day 0..6 is kept, anything else becomes the default. */
  function SanitizeWeekday(day: RawValue): (r: int)
    ensures 0 <= r <= 6
    ensures NumericValue(day).Some? && 0 <= NumericValue(day).value <= 6 ==> r == NumericValue(day).value
    ensures NumericValue(day).None? || !(0 <= NumericValue(day).value <= 6) ==> r == DefaultWeeklyDay
  {
    match NumericValue(day)
    case Some(d) => if 0 <= d <= 6 then d else DefaultWeeklyDay
    case None => DefaultWeeklyDay
  }

  /** A weekday written as decimal text is read as that weekday, and re-sanitising is a no-op. */
  lemma SanitizeWeekdayText(day: RawValue)
    ensures var r := SanitizeWeekday(day);
      SanitizeWeekday(Text(IntToString(r))) == r && SanitizeWeekday(Integer(r)) == r
  {
    NumericStringOfIntToString(SanitizeWeekday(day));
  }

  // ---------------------------------------------------------------------------
  // scheduled paths

  /** A stored scheduled path: starts with exactly one slash and carries no edge whitespace. */
  predicate IsNormalPath(p: string) {
    |p| >= 1 && p[0] == '/' && (|p| == 1 || (p[1] != '/' && p[|p| - 1] !in TrimSpace))
  }

  /** One non-blank line of the paths field: `'/' . ltrim(trim($line), '/')`. */
  function NormalizePathLine(line: string): (p: string)
    ensures IsNormalPath(p)
  {
    var t := Trim(line);
    var rest := LTrim(t, {'/'});
    LTrimSuffix(t, {'/'});
    assert |rest| > 0 ==> rest[|rest| - 1] == t[|t| - 1];
    "/" + rest
  }

  /** The trimmed line is a run of slashes followed by the normalised path after its one slash. */
  lemma NormalizePathLineShape(line: string)
    ensures var t := Trim(line);
      exists n ::
        && 0 <= n <= |t|
        && AllIn(t[..n], {'/'})
        && NormalizePathLine(line) == "/" + t[n..]
  {
    var t := Trim(line);
    var rest := LTrim(t, {'/'});
    LTrimSuffix(t, {'/'});
    LTrimDropsOnly(t, {'/'});
    var n := |t| - |rest|;
    assert NormalizePathLine(line) == "/" + t[n..];
  }

  /** A stored path is its own normalisation. */
  lemma NormalizePathLineNoop(p: string)
    requires IsNormalPath(p)
    ensures NormalizePathLine(p) == p
  {
    NormalPathTrimmed(p);
    NormalPathOneSlash(p);
    assert "/" + p[1..] == p;
  }

  lemma NormalPathTrimmed(p: string)
    requires IsNormalPath(p)
    ensures Trim(p) == p
  {
    TrimNoop(p);
  }

  lemma NormalPathOneSlash(p: string)
    requires IsNormalPath(p)
    ensures LTrim(p, {'/'}) == p[1..]
  {
    LTrimNoop(p[1..], {'/'});
  }

  /** `'' === trim($line)`: the line holds only whitespace. */
  predicate IsBlank(line: string) {
    Trim(line) == ""
  }

  /** Every line is blank. */
  predicate AllBlank(lines: seq<string>) {
    forall i :: 0 <= i < |lines| ==> IsBlank(lines[i])
  }

  /** One step of the paths loop: a blank line is skipped, any other is normalised. */
  function PathOfLine(line: string): Option<string> {
    if IsBlank(line) then None else Some(NormalizePathLine(line))
  }

  /** The normalised non-blank lines, in input order, duplicates kept. */
  function PathCandidates(lines: seq<string>): (ps: seq<string>)
    ensures forall i :: 0 <= i < |ps| ==> IsNormalPath(ps[i])
    ensures |ps| == 0 <==> AllBlank(lines)
  {
    FilterMapKeeps(lines, PathOfLine, IsNormalPath);
    FilterMapEmpty(lines, PathOfLine);
    FilterMap(lines, PathOfLine)
  }

  /** Every non-blank line is represented by its normalisation. */
  lemma PathCandidatesCover(lines: seq<string>, i: nat)
    requires i < |lines| && !IsBlank(lines[i])
    ensures NormalizePathLine(lines[i]) in PathCandidates(lines)
  {
    FilterMapCover(lines, PathOfLine, i);
  }

  /** Every candidate is the normalisation of some non-blank line. */
  lemma PathCandidatesFromLines(lines: seq<string>, k: nat)
    requires k < |PathCandidates(lines)|
    ensures exists i :: 0 <= i < |lines| && !IsBlank(lines[i]) && PathCandidates(lines)[k] == NormalizePathLine(lines[i])
  {
    FilterMapFrom(lines, PathOfLine, k);
  }

  /** Candidates follow line order: one more line adds its normalisation at the end, unless it is blank. */
  lemma PathCandidatesAppend(lines: seq<string>, line: string)
    ensures PathCandidates(lines + [line])
      == PathCandidates(lines) + (if IsBlank(line) then [] else [NormalizePathLine(line)])
  {
    FilterMapAppend(lines, line, PathOfLine);
  }

  /** `sanitize_paths($v)` on the lines of the raw value. */
  function SanitizePaths(v: RawValue): (r: seq<string>)
    ensures |r| >= 1 && NoDups(r)
    ensures forall i :: 0 <= i < |r| ==> IsNormalPath(r[i])
  {
    SanitizePathLines(ToLines(v))
  }

  /** The normalised non-blank lines without duplicates, or the default list when none is left. */
  function SanitizePathLines(lines: seq<string>): (r: seq<string>)
    ensures |r| >= 1 && NoDups(r)
    ensures forall i :: 0 <= i < |r| ==> IsNormalPath(r[i])
  {
    var ps := PathCandidates(lines);
    var kept := if |ps| == 0 then DefaultPaths else ps;
    UniqueKeeps(kept, IsNormalPath);
    Unique(kept)
  }

  /** Blank input yields the default path list; otherwise every non-blank line is kept, normalised. */
  lemma SanitizePathLinesContents(lines: seq<string>)
    ensures AllBlank(lines) ==> SanitizePathLines(lines) == DefaultPaths
    ensures forall i :: 0 <= i < |lines| && !IsBlank(lines[i]) ==>
      NormalizePathLine(lines[i]) in SanitizePathLines(lines)
    ensures !AllBlank(lines) ==> forall p :: p in SanitizePathLines(lines) ==>
      exists i :: 0 <= i < |lines| && !IsBlank(lines[i]) && p == NormalizePathLine(lines[i])
  {
    if AllBlank(lines) {
      UniqueNoDups(DefaultPaths);
    } else {
      forall p | p in SanitizePathLines(lines)
        ensures exists i :: 0 <= i < |lines| && !IsBlank(lines[i]) && p == NormalizePathLine(lines[i])
      {
        SanitizedPathFromLine(lines, p);
      }
    }
    forall i | 0 <= i < |lines| && !IsBlank(lines[i])
      ensures NormalizePathLine(lines[i]) in SanitizePathLines(lines)
    {
      PathCandidatesCover(lines, i);
    }
  }

  /** A kept path of non-blank input is the normalisation of one of its lines. */
  lemma SanitizedPathFromLine(lines: seq<string>, p: string)
    requires !AllBlank(lines) && p in SanitizePathLines(lines)
    ensures exists i :: 0 <= i < |lines| && !IsBlank(lines[i]) && p == NormalizePathLine(lines[i])
  {
    var ps := PathCandidates(lines);
    var r := SanitizePathLines(lines);
    var j :| 0 <= j < |r| && r[j] == p;
    var k :| 0 <= k < |ps| && ps[k] == p;
    PathCandidatesFromLines(lines, k);
  }

  /** Kept paths come from the input and keep the order of their first occurrence. */
  lemma SanitizePathLinesOrder(lines: seq<string>)
    requires |PathCandidates(lines)| > 0
    ensures var ps := PathCandidates(lines);
      && (forall i :: 0 <= i < |SanitizePathLines(lines)| ==> SanitizePathLines(lines)[i] in ps)
      && InFirstOccurrenceOrder(ps, SanitizePathLines(lines))
  {
    UniqueOrder(PathCandidates(lines));
  }

  /** Sanitising sanitised paths again changes nothing. */
  lemma SanitizePathsIdempotent(v: RawValue)
    ensures SanitizePaths(List(SanitizePaths(v))) == SanitizePaths(v)
  {
    var r := SanitizePaths(v);
    CandidatesOfNormalPaths(r);
    UniqueNoDups(r);
  }

  lemma CandidatesOfNormalPaths(ps: seq<string>)
    requires forall i :: 0 <= i < |ps| ==> IsNormalPath(ps[i])
    ensures PathCandidates(ps) == ps
  {
    forall i | 0 <= i < |ps| ensures PathOfLine(ps[i]) == Some(ps[i]) {
      NormalizePathLineNoop(ps[i]);
      NormalPathTrimmed(ps[i]);
    }
    FilterMapIdentity(ps, PathOfLine);
  }

  // ---------------------------------------------------------------------------
  // hosts

  /** A host as stored: no trailing slash or backslash. */
  predicate NoTrailingSlash(h: string) {
    |h| == 0 || h[|h| - 1] !in TrailingSlashes
  }

  /** A line the hosts loop keeps: non-blank once trimmed, and non-empty once escaped. */
  predicate UsableHostLine(line: string, escUrlRaw: string -> string) {
    Trim(line) != "" && !IsEmptyString(escUrlRaw(Trim(line)))
  }

  /** One step of the hosts loop: skip an unusable line, else keep it escaped and without trailing slashes. */
  function HostOfLine(line: string, escUrlRaw: string -> string): Option<string> {
    if UsableHostLine(line, escUrlRaw) then Some(Untrailingslashit(escUrlRaw(Trim(line)))) else None
  }

  /** The hosts-loop step as a function of the line. */
  function HostStep(escUrlRaw: string -> string): string -> Option<string> {
    line => HostOfLine(line, escUrlRaw)
  }

  /** The escaped non-blank lines without trailing slashes, in input order, duplicates kept. */
  function HostCandidates(lines: seq<string>, escUrlRaw: string -> string): (hs: seq<string>)
    ensures forall i :: 0 <= i < |hs| ==> NoTrailingSlash(hs[i])
  {
    FilterMapKeeps(lines, HostStep(escUrlRaw), NoTrailingSlash);
    FilterMap(lines, HostStep(escUrlRaw))
  }

  /** Every candidate is a usable line, trimmed, escaped and without trailing slashes. */
  lemma HostCandidatesFromLines(lines: seq<string>, escUrlRaw: string -> string, k: nat)
    requires k < |HostCandidates(lines, escUrlRaw)|
    ensures exists i ::
      && 0 <= i < |lines| && UsableHostLine(lines[i], escUrlRaw)
      && HostCandidates(lines, escUrlRaw)[k] == Untrailingslashit(escUrlRaw(Trim(lines[i])))
  {
    FilterMapFrom(lines, HostStep(escUrlRaw), k);
  }

  /** Every usable line is represented among the candidates. */
  lemma HostCandidatesCover(lines: seq<string>, escUrlRaw: string -> string, i: nat)
    requires i < |lines| && UsableHostLine(lines[i], escUrlRaw)
    ensures Untrailingslashit(escUrlRaw(Trim(lines[i]))) in HostCandidates(lines, escUrlRaw)
  {
    FilterMapCover(lines, HostStep(escUrlRaw), i);
  }

  /** Candidates follow line order: one more line adds its host at the end, unless it is unusable. */
  lemma HostCandidatesAppend(lines: seq<string>, line: string, escUrlRaw: string -> string)
    ensures HostCandidates(lines + [line], escUrlRaw) == HostCandidates(lines, escUrlRaw)
      + (if UsableHostLine(line, escUrlRaw) then [Untrailingslashit(escUrlRaw(Trim(line)))] else [])
  {
    FilterMapAppend(lines, line, HostStep(escUrlRaw));
  }

  /** `sanitize_hosts($v)` on the lines of the raw value. */
  function SanitizeHosts(v: RawValue, env: Env): (r: seq<string>)
    ensures |r| >= 1 && NoDups(r)
    ensures forall i :: 0 <= i < |r| ==> NoTrailingSlash(r[i])
  {
    SanitizeHostLines(ToLines(v), env)
  }

  /** The usable hosts without duplicates, or the home URL when none is left. */
  function SanitizeHostLines(lines: seq<string>, env: Env): (r: seq<string>)
    ensures |r| >= 1 && NoDups(r)
    ensures forall i :: 0 <= i < |r| ==> NoTrailingSlash(r[i])
  {
    var hs := HostCandidates(lines, env.escUrlRaw);
    var kept := if |hs| == 0 then DefaultHosts(env.homeUrl) else hs;
    UniqueKeeps(kept, NoTrailingSlash);
    Unique(kept)
  }

  /** No usable line yields the home URL; otherwise exactly the candidates, first occurrences in order. */
  lemma SanitizeHostLinesContents(lines: seq<string>, env: Env)
    ensures var hs := HostCandidates(lines, env.escUrlRaw);
      var r := SanitizeHostLines(lines, env);
      && (|hs| == 0 ==> r == DefaultHosts(env.homeUrl))
      && (|hs| > 0 ==>
            && (forall i :: 0 <= i < |r| ==> r[i] in hs)
            && (forall i :: 0 <= i < |hs| ==> hs[i] in r)
            && InFirstOccurrenceOrder(hs, r))
  {
    var hs := HostCandidates(lines, env.escUrlRaw);
    if |hs| == 0 {
      DefaultHostsUnique(env.homeUrl);
    } else {
      UniqueOrder(hs);
    }
  }

  lemma DefaultHostsUnique(homeUrl: string)
    ensures Unique(DefaultHosts(homeUrl)) == DefaultHosts(homeUrl)
    ensures NoTrailingSlash(DefaultHosts(homeUrl)[0])
  {
    UniqueNoDups(DefaultHosts(homeUrl));
  }

  // ---------------------------------------------------------------------------
  // direct purge server

  /** The trimmed server address without trailing slashes. */
  function PurgeServerCore(s: string): (r: string)
    ensures |r| <= |Trim(s)| && r == Trim(s)[..|r|]
    ensures |r| > 0 ==> r[0] !in TrimSpace && r[|r| - 1] != '/'
    ensures AllIn(Trim(s)[|r|..], {'/'})
  {
    RTrimPrefix(Trim(s), {'/'});
    RTrimDropsOnly(Trim(s), {'/'});
    RTrim(Trim(s), {'/'})
  }

  /** `sanitize_purge_server($v)`: empty unless a non-blank string, else sanitize_text_field of its core. */
  function SanitizePurgeServer(v: RawValue, sanitizeTextField: string -> string): (r: string)
    ensures !v.Text? || Trim(v.s) == "" ==> r == ""
    ensures v.Text? && Trim(v.s) != "" ==> r == sanitizeTextField(PurgeServerCore(v.s))
  {
    match v
    case Text(s) => if Trim(s) == "" then "" else sanitizeTextField(PurgeServerCore(s))
    case _ => ""
  }

  /**
   * A non-blank address is cut after its last character that is not a trailing slash: what
   * reaches sanitize_text_field is a prefix of the trimmed value, and only slashes are dropped.
   */
  lemma SanitizePurgeServerCut(s: string, sanitizeTextField: string -> string)
    requires Trim(s) != ""
    ensures exists n ::
      && 0 <= n <= |Trim(s)|
      && SanitizePurgeServer(Text(s), sanitizeTextField) == sanitizeTextField(Trim(s)[..n])
      && AllIn(Trim(s)[n..], {'/'})
      && (n > 0 ==> Trim(s)[n - 1] != '/')
  {
    var c := PurgeServerCore(s);
    assert Trim(s)[..|c|] == c;
  }

  // ---------------------------------------------------------------------------
  // the whole settings array

  /** The invariants every sanitised settings snapshot satisfies. */
  predicate ValidSettings(s: Settings, schedules: Schedules) {
    && |s.hosts| >= 1 && NoDups(s.hosts)
    && (forall i :: 0 <= i < |s.hosts| ==> NoTrailingSlash(s.hosts[i]))
    && |s.scheduledPaths| >= 1 && NoDups(s.scheduledPaths)
    && (forall i :: 0 <= i < |s.scheduledPaths| ==> IsNormalPath(s.scheduledPaths[i]))
    && (s.scheduleInterval in schedules || s.scheduleInterval == DefaultInterval)
    && IsCanonicalTime(s.dailyTime) && IsCanonicalTime(s.weeklyTime)
    && 0 <= s.weeklyDay <= 6
  }

  /** `sanitize_text_field` of a scalar's string form; empty for arrays. */
  function TextField(v: RawValue, sanitizeTextField: string -> string): string {
    match ScalarString(v)
    case Some(s) => sanitizeTextField(s)
    case None => ""
  }

  /** The schedule name kept by sanitisation: a registered key, else the default. */
  function SanitizeInterval(fields: map<string, RawValue>, schedules: Schedules): (r: string)
    ensures r in schedules || r == DefaultInterval
    ensures Filled(fields, "schedule_interval") && SanitizeKey(fields["schedule_interval"]) in schedules
      ==> r == SanitizeKey(fields["schedule_interval"])
    ensures !Filled(fields, "schedule_interval") || SanitizeKey(fields["schedule_interval"]) !in schedules
      ==> r == DefaultInterval
  {
    if Filled(fields, "schedule_interval") && SanitizeKey(fields["schedule_interval"]) in schedules
    then SanitizeKey(fields["schedule_interval"])
    else DefaultInterval
  }

  /** `sanitize_settings($raw)`: field-by-field sanitisation with fallback to the defaults. */
  function SanitizeSettings(raw: RawInput, env: Env): (r: Settings)
    ensures ValidSettings(r, env.schedules)
    ensures raw.NotArray? ==> r == Defaults(env.homeUrl)
  {
    var d := Defaults(env.homeUrl);
    assert ValidSettings(d, env.schedules) by {
      assert IsCanonicalTime(DefaultDailyTime) && IsCanonicalTime(DefaultWeeklyTime);
      DefaultHostsUnique(env.homeUrl);
    }
    match raw
    case NotArray => d
    case Fields(f) => SanitizeFields(f, env)
  }

  /**
   * A submitted form with no fields keeps every default except the three purge flags,
   * which an absent checkbox turns off.
   */
  lemma EmptyFormSettings(env: Env)
    ensures SanitizeSettings(Fields(map[]), env)
      == Defaults(env.homeUrl).(purgeOnPublish := false, purgeOnUpdate := false, purgeHomeOnPost := false)
  {
  }

  /** The `hosts` field: sanitised when filled, else the home URL. */
  function HostsField(f: map<string, RawValue>, env: Env): (r: seq<string>)
    ensures |r| >= 1 && NoDups(r)
    ensures forall i :: 0 <= i < |r| ==> NoTrailingSlash(r[i])
  {
    DefaultHostsUnique(env.homeUrl);
    if Filled(f, "hosts") then SanitizeHosts(f["hosts"], env) else DefaultHosts(env.homeUrl)
  }

  /** The `scheduled_paths` field: sanitised when filled, else the default list. */
  function PathsField(f: map<string, RawValue>): (r: seq<string>)
    ensures |r| >= 1 && NoDups(r)
    ensures forall i :: 0 <= i < |r| ==> IsNormalPath(r[i])
  {
    if Filled(f, "scheduled_paths") then SanitizePaths(f["scheduled_paths"]) else DefaultPaths
  }

  /**
   * A time field: `$raw[$key] ?? $default`, sanitised with the default as fallback. An unset
   * field yields the default text, which sanitises to itself (SanitizeCanonicalTime).
   */
  function TimeField(f: map<string, RawValue>, key: string, default: string): (r: string)
    requires IsCanonicalTime(default)
    ensures IsCanonicalTime(r)
  {
    if IsSet(f, key) then SanitizeTimeField(f[key], default) else default
  }

  /** The field-by-field rules of `sanitize_settings` for an array input. */
  function SanitizeFields(f: map<string, RawValue>, env: Env): (r: Settings)
    ensures ValidSettings(r, env.schedules)
  {
    var hosts := HostsField(f, env);
    var paths := PathsField(f);
    var interval := SanitizeInterval(f, env.schedules);
    var dailyTime := TimeField(f, "daily_time", DefaultDailyTime);
    var weeklyDay := SanitizeWeekday(FieldOr(f, "weekly_day", Integer(DefaultWeeklyDay)));
    var weeklyTime := TimeField(f, "weekly_time", DefaultWeeklyTime);
    Settings(
      hosts := hosts,
      purgeServer :=
        if Filled(f, "purge_server") then SanitizePurgeServer(f["purge_server"], env.sanitizeTextField) else "",
      scheduleInterval := interval,
      scheduledPaths := paths,
      dailyTime := dailyTime,
      weeklyDay := weeklyDay,
      weeklyTime := weeklyTime,
      purgeOnPublish := Filled(f, "purge_on_publish"),
      purgeOnUpdate := Filled(f, "purge_on_update"),
      purgeHomeOnPost := Filled(f, "purge_home_on_post"),
      headerName := if IsSet(f, "header_name") then TextField(f["header_name"], env.sanitizeTextField) else "",
      headerValue := if IsSet(f, "header_value") then TextField(f["header_value"], env.sanitizeTextField) else "",
      verboseLogging := Filled(f, "verbose_logging"))
  }

  // ---------------------------------------------------------------------------
  // re-saving stored settings

  /** A stored host that sanitisation leaves as it is: trimmed, non-empty, already escaped, no trailing slash. */
  predicate StableHost(h: string, escUrlRaw: string -> string) {
    && Trim(h) == h && h != "" && !IsEmptyString(h)
    && escUrlRaw(h) == h && NoTrailingSlash(h)
  }

  /** Lines that are all stable hosts are their own candidates. */
  lemma CandidatesOfStableHosts(hs: seq<string>, escUrlRaw: string -> string)
    requires forall i :: 0 <= i < |hs| ==> StableHost(hs[i], escUrlRaw)
    ensures HostCandidates(hs, escUrlRaw) == hs
  {
    forall i | 0 <= i < |hs| ensures HostStep(escUrlRaw)(hs[i]) == Some(hs[i]) {
      RTrimNoop(hs[i], TrailingSlashes);
    }
    FilterMapIdentity(hs, HostStep(escUrlRaw));
  }

  /**
   * `f` is the settings array as `update_option` stores `s`: lists for hosts and paths,
   * strings for the texts, an integer weekday and booleans for the checkboxes.
   */
  predicate StoredArray(f: map<string, RawValue>, s: Settings) {
    && "hosts" in f && f["hosts"] == List(s.hosts)
    && "purge_server" in f && f["purge_server"] == Text(s.purgeServer)
    && "schedule_interval" in f && f["schedule_interval"] == Text(s.scheduleInterval)
    && "scheduled_paths" in f && f["scheduled_paths"] == List(s.scheduledPaths)
    && "daily_time" in f && f["daily_time"] == Text(s.dailyTime)
    && "weekly_day" in f && f["weekly_day"] == Integer(s.weeklyDay)
    && "weekly_time" in f && f["weekly_time"] == Text(s.weeklyTime)
    && "purge_on_publish" in f && f["purge_on_publish"] == Flag(s.purgeOnPublish)
    && "purge_on_update" in f && f["purge_on_update"] == Flag(s.purgeOnUpdate)
    && "purge_home_on_post" in f && f["purge_home_on_post"] == Flag(s.purgeHomeOnPost)
    && "header_name" in f && f["header_name"] == Text(s.headerName)
    && "header_value" in f && f["header_value"] == Text(s.headerValue)
    && "verbose_logging" in f && f["verbose_logging"] == Flag(s.verboseLogging)
  }

  /**
   * Stored settings that re-sanitise to themselves: valid, with hosts, purge server,
   * schedule name and header texts in the form the sanitisers produce and the
   * WordPress helpers leave alone.
   */
  predicate Resavable(s: Settings, env: Env) {
    && ValidSettings(s, env.schedules)
    && (forall i :: 0 <= i < |s.hosts| ==> StableHost(s.hosts[i], env.escUrlRaw))
    && (s.purgeServer == "" ||
          (!IsEmptyString(s.purgeServer) && Trim(s.purgeServer) == s.purgeServer
           && s.purgeServer[|s.purgeServer| - 1] != '/'
           && env.sanitizeTextField(s.purgeServer) == s.purgeServer))
    && !IsEmptyString(s.scheduleInterval)
    && (forall i :: 0 <= i < |s.scheduleInterval| ==> IsKeyChar(s.scheduleInterval[i]))
    && env.sanitizeTextField(s.headerName) == s.headerName
    && env.sanitizeTextField(s.headerValue) == s.headerValue
  }

  /** Stable hosts, stored as a list, sanitise to themselves. */
  lemma ResaveHosts(hs: seq<string>, env: Env)
    requires |hs| >= 1 && NoDups(hs)
    requires forall i :: 0 <= i < |hs| ==> StableHost(hs[i], env.escUrlRaw)
    ensures SanitizeHosts(List(hs), env) == hs
  {
    CandidatesOfStableHosts(hs, env.escUrlRaw);
    UniqueNoDups(hs);
  }

  /** Stored paths, as a list, sanitise to themselves. */
  lemma ResavePaths(ps: seq<string>)
    requires |ps| >= 1 && NoDups(ps)
    requires forall i :: 0 <= i < |ps| ==> IsNormalPath(ps[i])
    ensures SanitizePaths(List(ps)) == ps
  {
    CandidatesOfNormalPaths(ps);
    UniqueNoDups(ps);
  }

  /** The checkbox, weekday and header fields of a stored array read back unchanged. */
  lemma ResaveScalars(f: map<string, RawValue>, s: Settings, env: Env)
    requires StoredArray(f, s) && 0 <= s.weeklyDay <= 6
    requires env.sanitizeTextField(s.headerName) == s.headerName
    requires env.sanitizeTextField(s.headerValue) == s.headerValue
    ensures var r := SanitizeFields(f, env);
      && r.weeklyDay == s.weeklyDay
      && r.purgeOnPublish == s.purgeOnPublish && r.purgeOnUpdate == s.purgeOnUpdate
      && r.purgeHomeOnPost == s.purgeHomeOnPost && r.verboseLogging == s.verboseLogging
      && r.headerName == s.headerName && r.headerValue == s.headerValue
  {
  }

  /** The two canonical times of a stored array read back unchanged. */
  lemma ResaveTimes(f: map<string, RawValue>, s: Settings, env: Env)
    requires StoredArray(f, s) && IsCanonicalTime(s.dailyTime) && IsCanonicalTime(s.weeklyTime)
    ensures SanitizeFields(f, env).dailyTime == s.dailyTime
    ensures SanitizeFields(f, env).weeklyTime == s.weeklyTime
  {
    SanitizeCanonicalTime(s.dailyTime, DefaultDailyTime);
    SanitizeCanonicalTime(s.weeklyTime, DefaultWeeklyTime);
  }

  /** The host and path lists of a resavable stored array read back unchanged. */
  lemma ResaveLists(f: map<string, RawValue>, s: Settings, env: Env)
    requires StoredArray(f, s) && Resavable(s, env)
    ensures SanitizeFields(f, env).hosts == s.hosts
    ensures SanitizeFields(f, env).scheduledPaths == s.scheduledPaths
  {
    ResaveHosts(s.hosts, env);
    ResavePaths(s.scheduledPaths);
  }

  /** A stored purge server in sanitised form reads back unchanged. */
  lemma ResaveServer(f: map<string, RawValue>, s: Settings, env: Env)
    requires "purge_server" in f && f["purge_server"] == Text(s.purgeServer)
    requires s.purgeServer == "" ||
          (!IsEmptyString(s.purgeServer) && Trim(s.purgeServer) == s.purgeServer
           && s.purgeServer[|s.purgeServer| - 1] != '/'
           && env.sanitizeTextField(s.purgeServer) == s.purgeServer)
    ensures SanitizeFields(f, env).purgeServer == s.purgeServer
  {
    if s.purgeServer != "" {
      RTrimNoop(s.purgeServer, {'/'});
      assert PurgeServerCore(s.purgeServer) == s.purgeServer;
    }
  }

  /** A stored schedule name that is registered, or the default, reads back unchanged. */
  lemma ResaveInterval(f: map<string, RawValue>, s: Settings, env: Env)
    requires "schedule_interval" in f && f["schedule_interval"] == Text(s.scheduleInterval)
    requires s.scheduleInterval in env.schedules || s.scheduleInterval == DefaultInterval
    requires !IsEmptyString(s.scheduleInterval)
    requires forall i :: 0 <= i < |s.scheduleInterval| ==> IsKeyChar(s.scheduleInterval[i])
    ensures SanitizeFields(f, env).scheduleInterval == s.scheduleInterval
  {
  }

  /** Re-saving stored settings is a fixed point: sanitising the stored array gives the same settings back. */
  lemma ResaveStoredSettings(f: map<string, RawValue>, s: Settings, env: Env)
    requires StoredArray(f, s) && Resavable(s, env)
    ensures SanitizeSettings(Fields(f), env) == s
  {
    ResaveScalars(f, s, env);
    ResaveTimes(f, s, env);
    ResaveLists(f, s, env);
    ResaveServer(f, s, env);
    ResaveInterval(f, s, env);
  }
}

=== FILE: sift.dfy ===
/**
 * A `foreach` that appends to a list only some of the elements it visits, each possibly
 * transformed: the step gives Some(y) to append y and None to skip the element.
 */
module Sift {
  import opened Wrappers

  /** What one step appends: its value, or nothing. */
  function Kept<B>(o: Option<B>): seq<B>
  {
    match o
    case Some(y) => [y]
    case None => []
  }

  /** The values of the steps over xs that give one, in the order of xs. */
  function FilterMap<A, B>(xs: seq<A>, f: A -> Option<B>): (r: seq<B>)
    ensures |r| <= |xs|
  {
    if |xs| == 0 then [] else Kept(f(xs[0])) + FilterMap(xs[1..], f)
  }

  /** The loop appends at the end: one more element adds its value, if any, after the others. */
  lemma {:induction false} FilterMapAppend<A, B>(xs: seq<A>, x: A, f: A -> Option<B>)
    ensures FilterMap(xs + [x], f) == FilterMap(xs, f) + Kept(f(x))
  {
    if |xs| == 0 {
      assert xs + [x] == [x];
      assert [x][1..] == [];
    } else {
      assert (xs + [x])[0] == xs[0];
      assert (xs + [x])[1..] == xs[1..] + [x];
      FilterMapAppend(xs[1..], x, f);
    }
  }

  /** Every value kept is the value of a step at some element. */
  lemma {:induction false} FilterMapFrom<A, B>(xs: seq<A>, f: A -> Option<B>, k: nat)
    requires k < |FilterMap(xs, f)|
    ensures exists i :: 0 <= i < |xs| && f(xs[i]) == Some(FilterMap(xs, f)[k])
  {
    var head := Kept(f(xs[0]));
    if k < |head| {
      assert f(xs[0]) == Some(FilterMap(xs, f)[k]);
    } else {
      FilterMapFrom(xs[1..], f, k - |head|);
      var i :| 0 <= i < |xs[1..]| && f(xs[1..][i]) == Some(FilterMap(xs[1..], f)[k - |head|]);
      assert xs[1..][i] == xs[i + 1];
    }
  }

  /** Every value a step gives is kept. */
  lemma {:induction false} FilterMapCover<A, B>(xs: seq<A>, f: A -> Option<B>, i: nat)
    requires i < |xs| && f(xs[i]).Some?
    ensures f(xs[i]).value in FilterMap(xs, f)
  {
    if i > 0 {
      assert xs[1..][i - 1] == xs[i];
      FilterMapCover(xs[1..], f, i - 1);
    }
  }

  /** Nothing is kept exactly when every step skips. */
  lemma {:induction false} FilterMapEmpty<A, B>(xs: seq<A>, f: A -> Option<B>)
    ensures |FilterMap(xs, f)| == 0 <==> forall i :: 0 <= i < |xs| ==> f(xs[i]).None?
  {
    if |xs| > 0 {
      FilterMapEmpty(xs[1..], f);
      assert forall i :: 1 <= i < |xs| ==> xs[1..][i - 1] == xs[i];
    }
  }

  /** A property of every value a step gives holds of every value kept. */
  lemma FilterMapKeeps<A, B>(xs: seq<A>, f: A -> Option<B>, P: B -> bool)
    requires forall i :: 0 <= i < |xs| && f(xs[i]).Some? ==> P(f(xs[i]).value)
    ensures forall k :: 0 <= k < |FilterMap(xs, f)| ==> P(FilterMap(xs, f)[k])
  {
    forall k | 0 <= k < |FilterMap(xs, f)| ensures P(FilterMap(xs, f)[k]) {
      FilterMapFrom(xs, f, k);
    }
  }

  /** Steps that keep every element unchanged keep the whole list. */
  lemma {:induction false} FilterMapIdentity<A>(xs: seq<A>, f: A -> Option<A>)
    requires forall i :: 0 <= i < |xs| ==> f(xs[i]) == Some(xs[i])
    ensures FilterMap(xs, f) == xs
  {
    if |xs| > 0 {
      assert f(xs[0]) == Some(xs[0]);
      assert forall i :: 0 <= i < |xs[1..]| ==> xs[1..][i] == xs[i + 1];
      FilterMapIdentity(xs[1..], f);
      assert [xs[0]] + xs[1..] == xs;
    }
  }
}

=== FILE: urls.dfy ===
/**
 * URL handling of the purger: splitting a URL into its parts (a deliberately simple
 * stand-in for `wp_parse_url`), building the request URL for a host or for the direct
 * purge server, reading the Host header of an endpoint, and moving a URL onto another
 * host.
 */
module Urls {
  import opened Wrappers
  import opened PhpStrings

  // ---------------------------------------------------------------------------
  // splitting

  /** s cut at the first c: the part before it, and the part after it when c occurs. */
  function SplitAt(s: string, c: char): (r: (string, Option<string>))
    ensures c !in r.0
    ensures r.1.None? ==> r.0 == s
    ensures r.1.Some? ==> s == r.0 + [c] + r.1.value
  {
    if |s| == 0 then ("", None)
    else if s[0] == c then ("", Some(s[1..]))
    else
      var t := SplitAt(s[1..], c);
      assert t.1.Some? ==> s == [s[0]] + t.0 + [c] + t.1.value;
      ([s[0]] + t.0, t.1)
  }

  /** The cut happens at the first occurrence of c. */
  lemma {:induction false} SplitAtFirst(a: string, c: char, b: string)
    requires c !in a
    ensures SplitAt(a + [c] + b, c) == (a, Some(b))
  {
    if |a| > 0 {
      assert (a + [c] + b)[1..] == a[1..] + [c] + b;
      SplitAtFirst(a[1..], c, b);
      assert [a[0]] + a[1..] == a;
    } else {
      assert a + [c] + b == [c] + b;
    }
  }

  /** A string without c is not cut at all. */
  lemma SplitAtAbsent(s: string, c: char)
    requires c !in s
    ensures SplitAt(s, c) == (s, None)
  {
  }

  predicate IsLetter(ch: char) {
    'a' <= ch <= 'z' || 'A' <= ch <= 'Z'
  }

  /** The characters RFC 3986 (section 3.1) allows in a URI scheme. */
  predicate IsSchemeChar(ch: char) {
    IsLetter(ch) || IsDigit(ch) || ch == '+' || ch == '-' || ch == '.'
  }

  /** A scheme name: a letter followed by scheme characters. */
  predicate IsScheme(s: string) {
    |s| > 0 && IsLetter(s[0]) && forall i :: 0 <= i < |s| ==> IsSchemeChar(s[i])
  }

  /** The longest prefix of s made of scheme characters. */
  function SchemePrefix(s: string): (r: string)
    ensures |r| <= |s| && r == s[..|r|]
    ensures forall i :: 0 <= i < |r| ==> IsSchemeChar(r[i])
    ensures |r| < |s| ==> !IsSchemeChar(s[|r|])
  {
    if |s| == 0 || !IsSchemeChar(s[0]) then ""
    else [s[0]] + SchemePrefix(s[1..])
  }

  /** Text after the scheme prefix does not change the prefix once a non-scheme character ends it. */
  lemma {:induction false} SchemePrefixAppend(u: string, t: string)
    requires |SchemePrefix(u)| < |u|
    ensures SchemePrefix(u + t) == SchemePrefix(u)
  {
    if IsSchemeChar(u[0]) {
      assert (u + t)[1..] == u[1..] + t;
      SchemePrefixAppend(u[1..], t);
    }
  }

  /** `scheme://rest` split into the scheme and the rest; None without a scheme. */
  function SplitScheme(s: string): (r: Option<(string, string)>)
    ensures r.Some? ==> IsScheme(r.value.0) && s == r.value.0 + "://" + r.value.1
  {
    var sch := SchemePrefix(s);
    var rest := s[|sch|..];
    if |sch| > 0 && IsLetter(sch[0]) && |rest| >= 3 && rest[..3] == "://" then
      assert s == sch + rest && rest == "://" + rest[3..];
      Some((sch, rest[3..]))
    else None
  }

  /** A scheme followed by `://` is recognised as such, whatever follows. */
  lemma SplitSchemeOf(sch: string, rest: string)
    requires IsScheme(sch)
    ensures SplitScheme(sch + "://" + rest) == Some((sch, rest))
  {
    var s := sch + "://" + rest;
    SchemePrefixOf(sch, "://" + rest);
    assert s == sch + ("://" + rest);
    assert s[|sch|..] == "://" + rest;
  }

  lemma {:induction false} SchemePrefixOf(sch: string, t: string)
    requires forall i :: 0 <= i < |sch| ==> IsSchemeChar(sch[i])
    requires |t| > 0 && !IsSchemeChar(t[0])
    ensures SchemePrefix(sch + t) == sch
  {
    if |sch| > 0 {
      assert (sch + t)[1..] == sch[1..] + t;
      SchemePrefixOf(sch[1..], t);
      assert [sch[0]] + sch[1..] == sch;
    } else {
      assert sch + t == t;
    }
  }

  /** Appending to a URL that has a scheme keeps the scheme and extends the rest. */
  lemma SplitSchemeAppend(u: string, t: string)
    requires SplitScheme(u).Some?
    ensures SplitScheme(u + t) == Some((SplitScheme(u).value.0, SplitScheme(u).value.1 + t))
  {
    var sch := SplitScheme(u).value.0;
    var rest := SplitScheme(u).value.1;
    assert u + t == sch + "://" + (rest + t);
    SplitSchemeOf(sch, rest + t);
  }

  // ---------------------------------------------------------------------------
  // the authority

  /** The authority without any `user:password@` part. */
  function DropUserInfo(a: string): (r: string)
    ensures '@' !in r
    decreases |a|
  {
    var t := SplitAt(a, '@');
    if t.1.None? then a else DropUserInfo(t.1.value)
  }

  /** The host name of an authority: user information and port removed. */
  function HostOf(authority: string): (h: string)
    ensures '@' !in h && ':' !in h
  {
    SplitAt(DropUserInfo(authority), ':').0
  }

  /** A plain `host:port` authority has that host. */
  lemma HostOfHostPort(h: string, port: string)
    requires '@' !in h && ':' !in h && '@' !in port
    ensures HostOf(h + ":" + port) == h
  {
    var a := h + ":" + port;
    SplitAtAbsent(a, '@');
    SplitAtFirst(h, ':', port);
  }

  // ---------------------------------------------------------------------------
  // wp_parse_url

  /** The components `wp_parse_url` reports; an absent component is None. */
  datatype UrlParts = UrlParts(
    scheme: Option<string>,
    host: Option<string>,
    path: Option<string>,
    query: Option<string>)

  /**
   * A simple URL splitter standing in for `wp_parse_url`: the fragment is dropped at the
   * first `#`, the query starts after the first `?` (kept when empty, as PHP 8 does),
   * and `scheme://authority/path` is split at the first `/` after the authority. A URL
   * with a scheme but an empty host is rejected (PHP returns false). Anything without
   * `scheme://` is a bare path.
   */
  function ParseUrl(url: string): (r: Option<UrlParts>)
    ensures r.Some? ==> r.value.path.Some? ==>
      |r.value.path.value| > 0 && '?' !in r.value.path.value && '#' !in r.value.path.value
    ensures r.Some? ==> r.value.query.Some? ==> '#' !in r.value.query.value
    ensures r.Some? ==> (r.value.host.Some? <==> r.value.scheme.Some?)
    ensures r.Some? && r.value.host.Some? ==>
      r.value.host.value != "" && (r.value.path.Some? ==> r.value.path.value[0] == '/')
    ensures r.None? ==> SplitScheme(SplitAt(SplitAt(url, '#').0, '?').0).Some?
  {
    var beforeFragment := SplitAt(url, '#').0;
    var q := SplitAt(beforeFragment, '?');
    var rest := q.0;
    assert q.1.Some? ==> '#' !in q.1.value by {
      if q.1.Some? {
        assert beforeFragment == q.0 + ['?'] + q.1.value;
      }
    }
    match SplitScheme(rest)
    case None => Some(UrlParts(None, None, if rest == "" then None else Some(rest), q.1))
    case Some((sch, afterScheme)) =>
      var a := SplitAt(afterScheme, '/');
      var host := HostOf(a.0);
      if host == "" then None
      else
        assert a.1.Some? ==> '?' !in a.1.value && '#' !in a.1.value by {
          if a.1.Some? {
            assert rest == sch + "://" + (a.0 + ['/'] + a.1.value);
          }
        }
        Some(UrlParts(Some(sch), Some(host), if a.1.None? then None else Some("/" + a.1.value), q.1))
  }

  // ---------------------------------------------------------------------------
  // building URLs

  /** `'/' . ltrim($path, '/')`. */
  function LeadingSlash(path: string): (p: string)
    ensures |p| > 0 && p[0] == '/'
    ensures |p| == 1 || p[1] != '/'
  {
    "/" + LTrim(path, {'/'})
  }

  /** Normalising the leading slash twice is the same as once. */
  lemma LeadingSlashIdempotent(path: string)
    ensures LeadingSlash(LeadingSlash(path)) == LeadingSlash(path)
  {
    var t := LTrim(path, {'/'});
    assert ("/" + t)[1..] == t;
    LTrimNoop(t, {'/'});
  }

  /** Characters the path does not have, it does not gain by normalisation. */
  lemma LeadingSlashKeepsOut(path: string, c: char)
    requires c != '/' && c !in path
    ensures c !in LeadingSlash(path)
  {
    LTrimSuffix(path, {'/'});
  }

  /** `build_url($host, $path)`. */
  function BuildUrl(host: string, path: string): string {
    Untrailingslashit(host) + LeadingSlash(path)
  }

  /**
   * The base a direct purge server gives: None when the trimmed setting is empty, else
   * the server without trailing slashes, with `http://` put in front unless it already
   * starts with `http://` or `https://` in any letter case.
   */
  function PurgeServerBase(server: string): (r: Option<string>)
    ensures r.None? <==> Trim(server) == ""
    ensures r.Some? ==> HasHttpScheme(r.value)
    ensures r.Some? ==> r.value == RTrim(Trim(server), {'/'}) || r.value == "http://" + RTrim(Trim(server), {'/'})
  {
    var s := Trim(server);
    if s == "" then None
    else
      var core := RTrim(s, {'/'});
      if HasHttpScheme(core) then Some(core)
      else
        assert StartsWithIgnoringCase("http://" + core, "http://") by {
          assert forall i :: 0 <= i < 7 ==> ("http://" + core)[i] == "http://"[i];
        }
        Some("http://" + core)
  }

  /** The query part appended to a request URL: `?query` unless the query is empty. */
  function QuerySuffix(query: string): string {
    if query == "" then "" else "?" + query
  }

  /** `build_purge_request_url($host, $path, $query)` with the configured purge server. */
  function BuildPurgeRequestUrl(host: string, path: string, query: string, purgeServer: string): string {
    var p := LeadingSlash(path);
    var q := LTrim(query, {'?'});
    var url := match PurgeServerBase(purgeServer)
      case None => BuildUrl(host, p)
      case Some(base) => base + p;
    url + QuerySuffix(q)
  }

  /** The base a request URL is built on: the host, or the direct purge server when one is set. */
  function RequestBase(host: string, purgeServer: string): string {
    PurgeServerBase(purgeServer).GetOr(Untrailingslashit(host))
  }

  /** A request URL is its base, the normalised path, and the query when non-empty. */
  lemma BuildPurgeRequestUrlParts(host: string, path: string, query: string, purgeServer: string)
    ensures BuildPurgeRequestUrl(host, path, query, purgeServer)
      == RequestBase(host, purgeServer) + LeadingSlash(path) + QuerySuffix(LTrim(query, {'?'}))
  {
    LeadingSlashIdempotent(path);
  }

  /** With a purge server set the host plays no part, and the URL has an http(s) scheme. */
  lemma PurgeServerIgnoresHost(h1: string, h2: string, path: string, query: string, purgeServer: string)
    requires Trim(purgeServer) != ""
    ensures BuildPurgeRequestUrl(h1, path, query, purgeServer) == BuildPurgeRequestUrl(h2, path, query, purgeServer)
    ensures HasHttpScheme(BuildPurgeRequestUrl(h1, path, query, purgeServer))
  {
    RequestUrlOnServer(h1, path, query, purgeServer);
    RequestUrlOnServer(h2, path, query, purgeServer);
    HasHttpSchemeAppend(PurgeServerBase(purgeServer).value, LeadingSlash(path) + QuerySuffix(LTrim(query, {'?'})));
  }

  /** With a purge server set, a request URL is the server's base followed by the path and query. */
  lemma RequestUrlOnServer(host: string, path: string, query: string, purgeServer: string)
    requires Trim(purgeServer) != ""
    ensures BuildPurgeRequestUrl(host, path, query, purgeServer)
      == PurgeServerBase(purgeServer).value + (LeadingSlash(path) + QuerySuffix(LTrim(query, {'?'})))
  {
    BuildPurgeRequestUrlParts(host, path, query, purgeServer);
  }

  /** A server given without scheme is reached over plain http. */
  lemma PurgeServerDefaultsToHttp(server: string)
    requires Trim(server) != "" && !HasHttpScheme(RTrim(Trim(server), {'/'}))
    ensures PurgeServerBase(server) == Some("http://" + RTrim(Trim(server), {'/'}))
  {
  }

  /** A server already written with an http(s) scheme keeps it: only its trailing slashes go. */
  lemma PurgeServerKeepsScheme(server: string)
    requires Trim(server) != "" && HasHttpScheme(RTrim(Trim(server), {'/'}))
    ensures PurgeServerBase(server) == Some(RTrim(Trim(server), {'/'}))
  {
  }

  // ---------------------------------------------------------------------------
  // reading URLs back

  /** `get_path_and_query($url)`: the path (`/` when absent) and the query (empty when absent). */
  function GetPathAndQuery(url: string): (string, string) {
    match ParseUrl(url)
    case None => ("/", "")
    case Some(parts) => (parts.path.GetOr("/"), parts.query.GetOr(""))
  }

  /** `get_host_header_for_endpoint($host)`: the host of the URL, or empty. */
  function HostHeaderForEndpoint(endpoint: string): (h: string)
    ensures h == "" || (ParseUrl(endpoint).Some? && ParseUrl(endpoint).value.host == Some(h))
    ensures h != "" ==> ':' !in h && '@' !in h
  {
    match ParseUrl(endpoint)
    case Some(parts) =>
      if parts.host.Some? && !IsEmptyString(parts.host.value) then parts.host.value else ""
    case None => ""
  }

  /** `swap_host_in_url($url, $host)`: the path and query of the URL on another host. */
  function SwapHostInUrl(url: string, host: string): string {
    match ParseUrl(url)
    case None => ""
    case Some(parts) =>
      Untrailingslashit(host) + parts.path.GetOr("/")
        + (if parts.query.Some? then "?" + parts.query.value else "")
  }

  /**
   * An origin: `scheme://authority` with a non-empty host and nothing after the
   * authority, the shape of a configured host or purge server.
   */
  predicate IsOrigin(u: string) {
    SplitScheme(u).Some? &&
    var a := SplitScheme(u).value.1;
    '/' !in a && '?' !in a && '#' !in a && HostOf(a) != ""
  }

  /** An origin contains no `#`, `?` or `/` past its `://`. */
  lemma OriginChars(u: string)
    requires IsOrigin(u)
    ensures '#' !in u && '?' !in u
  {
    var sch := SplitScheme(u).value.0;
    assert forall i :: 0 <= i < |sch| ==> IsSchemeChar(sch[i]);
  }

  /** An origin followed by an absolute path and an optional query parses back into them. */
  lemma ParseOriginPathQuery(base: string, path: string, query: Option<string>)
    requires IsOrigin(base)
    requires |path| > 0 && path[0] == '/' && '?' !in path && '#' !in path
    requires query.Some? ==> '#' !in query.value
    ensures var url := base + path + (if query.Some? then "?" + query.value else "");
      ParseUrl(url) == Some(UrlParts(
        Some(SplitScheme(base).value.0), Some(HostOf(SplitScheme(base).value.1)), Some(path), query))
  {
    var sch := SplitScheme(base).value.0;
    var a := SplitScheme(base).value.1;
    var tail := if query.Some? then "?" + query.value else "";
    var url := base + path + tail;
    OriginChars(base);
    SplitAtAbsent(url, '#');
    if query.Some? {
      assert url == (base + path) + ['?'] + query.value;
      SplitAtFirst(base + path, '?', query.value);
    } else {
      assert url == base + path;
      SplitAtAbsent(url, '?');
    }
    SplitSchemeAppend(base, path);
    SplitAtPath(a, path);
  }

  /** An authority followed by an absolute path is cut at the path's first slash. */
  lemma SplitAtPath(a: string, path: string)
    requires '/' !in a && |path| > 0 && path[0] == '/'
    ensures SplitAt(a + path, '/') == (a, Some(path[1..]))
    ensures "/" + path[1..] == path
  {
    assert a + path == a + ['/'] + path[1..];
    SplitAtFirst(a, '/', path[1..]);
  }

  /** Round trip: the path and query a request URL was built from are read back from it. */
  lemma PathAndQueryOfRequestUrl(host: string, path: string, query: string, purgeServer: string)
    requires IsOrigin(RequestBase(host, purgeServer))
    requires '?' !in path && '#' !in path && '#' !in query
    ensures GetPathAndQuery(BuildPurgeRequestUrl(host, path, query, purgeServer))
      == (LeadingSlash(path), LTrim(query, {'?'}))
  {
    var p := LeadingSlash(path);
    var q := LTrim(query, {'?'});
    BuildPurgeRequestUrlParts(host, path, query, purgeServer);
    LeadingSlashKeepsOut(path, '?');
    LeadingSlashKeepsOut(path, '#');
    LTrimSuffix(query, {'?'});
    assert '#' !in q;
    var oq := if q == "" then None else Some(q);
    assert QuerySuffix(q) == (if oq.Some? then "?" + oq.value else "");
    ParseOriginPathQuery(RequestBase(host, purgeServer), p, oq);
  }

  /** Moving a parsed absolute URL onto an origin gives the origin's scheme and host with the URL's path and query. */
  lemma SwapParses(url: string, host: string)
    requires IsOrigin(Untrailingslashit(host))
    requires ParseUrl(url).Some? && ParseUrl(url).value.host.Some?
    ensures var base := SplitScheme(Untrailingslashit(host)).value;
      ParseUrl(SwapHostInUrl(url, host)) == Some(UrlParts(
        Some(base.0), Some(HostOf(base.1)), Some(ParseUrl(url).value.path.GetOr("/")), ParseUrl(url).value.query))
  {
    var parts := ParseUrl(url).value;
    ParseOriginPathQuery(Untrailingslashit(host), parts.path.GetOr("/"), parts.query);
  }

  /** Moving a parsed absolute URL onto an origin keeps its path and query. */
  lemma SwapKeepsPathAndQuery(url: string, host: string)
    requires IsOrigin(Untrailingslashit(host))
    requires ParseUrl(url).Some? && ParseUrl(url).value.host.Some?
    ensures GetPathAndQuery(SwapHostInUrl(url, host)) == GetPathAndQuery(url)
  {
    SwapParses(url, host);
  }

  /** After the move, the URL's Host header is the one of the new origin. */
  lemma SwapSetsHostHeader(url: string, host: string)
    requires IsOrigin(Untrailingslashit(host))
    requires ParseUrl(url).Some? && ParseUrl(url).value.host.Some?
    ensures HostHeaderForEndpoint(SwapHostInUrl(url, host)) == HostHeaderForEndpoint(Untrailingslashit(host))
  {
    SwapParses(url, host);
    ParseOrigin(Untrailingslashit(host));
    HostHeaderOfSameHost(SwapHostInUrl(url, host), Untrailingslashit(host));
  }

  /** Two endpoints that parse to the same host get the same Host header. */
  lemma HostHeaderOfSameHost(a: string, b: string)
    requires ParseUrl(a).Some? && ParseUrl(b).Some? && ParseUrl(a).value.host == ParseUrl(b).value.host
    ensures HostHeaderForEndpoint(a) == HostHeaderForEndpoint(b)
  {
  }

  /** An origin parses into its scheme and host, with no path and no query. */
  lemma ParseOrigin(u: string)
    requires IsOrigin(u)
    ensures ParseUrl(u) == Some(UrlParts(
      Some(SplitScheme(u).value.0), Some(HostOf(SplitScheme(u).value.1)), None, None))
  {
    OriginChars(u);
    SplitAtAbsent(u, '#');
    SplitAtAbsent(u, '?');
    SplitAtAbsent(SplitScheme(u).value.1, '/');
  }

  /** The Host header of an origin is its host name, unless that name is `0`. */
  lemma HostHeaderOfOrigin(u: string)
    requires IsOrigin(u) && !IsEmptyString(HostOf(SplitScheme(u).value.1))
    ensures HostHeaderForEndpoint(u) == HostOf(SplitScheme(u).value.1)
  {
    ParseOrigin(u);
  }

  /** A host name characters that end neither the authority nor the host. */
  predicate IsHostName(h: string) {
    h != "" && '@' !in h && ':' !in h && '/' !in h && '?' !in h && '#' !in h
  }

  /** `scheme://host:port` is an origin whose host is `host`. */
  lemma OriginOfHostPort(sch: string, h: string, port: string)
    requires IsScheme(sch) && IsHostName(h) && AllDigits(port)
    ensures IsOrigin(sch + "://" + h + ":" + port)
    ensures HostOf(SplitScheme(sch + "://" + h + ":" + port).value.1) == h
  {
    var a := h + ":" + port;
    assert sch + "://" + h + ":" + port == sch + "://" + a;
    SplitSchemeOf(sch, a);
    assert forall i :: 0 <= i < |port| ==> IsDigit(port[i]);
    HostOfHostPort(h, port);
  }

  /** A purge server given as bare `host:port` is reached as `http://host:port`. */
  lemma BareServerBase(h: string, port: string)
    requires IsHostName(h) && |port| > 0 && AllDigits(port)
    requires h[0] !in TrimSpace
    ensures PurgeServerBase(h + ":" + port) == Some("http://" + h + ":" + port)
    ensures IsOrigin("http://" + h + ":" + port)
  {
    var s := h + ":" + port;
    assert IsDigit(port[|port| - 1]);
    assert s[|s| - 1] == port[|port| - 1];
    TrimNoop(s);
    RTrimNoop(s, {'/'});
    HostPortHasNoScheme(h, port);
    assert "http://" + h + ":" + port == "http://" + s;
    assert "http" + "://" == "http://";
    OriginOfHostPort("http", h, port);
  }

  /** `host:port` does not start with `http://` or `https://`. */
  lemma HostPortHasNoScheme(h: string, port: string)
    requires IsHostName(h) && |port| > 0 && AllDigits(port)
    ensures !HasHttpScheme(h + ":" + port)
  {
    var s := h + ":" + port;
    assert IsDigit(port[0]);
    assert !StartsWithIgnoringCase(s, "http://") by {
      var k := if |h| < 4 then |h| else if |h| == 4 then 5 else 4;
      assert ToLowerAscii(s[k]) != "http://"[k];
    }
    assert !StartsWithIgnoringCase(s, "https://") by {
      var k := if |h| < 5 then |h| else if |h| == 5 then 6 else 5;
      assert ToLowerAscii(s[k]) != "https://"[k];
    }
  }

  /** An endpoint without `://` (a bare host name) yields no Host header. */
  lemma HostHeaderWithoutScheme(endpoint: string)
    requires ':' !in endpoint
    ensures HostHeaderForEndpoint(endpoint) == ""
  {
    var rest := SplitAt(SplitAt(endpoint, '#').0, '?').0;
    assert ':' !in rest;
  }
}

=== FILE: wrappers.dfy ===
/**
 * Optional values: PHP's "a value, or null/false" returns (a URL component that is
 * absent, a parse that failed) are modelled with Option.
 */
module Wrappers {

  datatype Option<+T> = None | Some(value: T) {

    /** The encapsulated value, or `default` when there is none (PHP's `??`). */
    function GetOr(default: T): T {
      match this
      case Some(v) => v
      case None => default
    }
  }
}
